=== FILE: README.md ===
# dpif-linux in Dafny

This project models the core of Open vSwitch's Linux datapath interface,
`lib/dpif-linux.c`. User space uses this layer to drive the kernel datapath
over Generic Netlink. The model covers:

- **Free-port allocator** (`port_alloc.dfy`, module `PortAlloc`). This is the
  1024-slot LRU ring of port numbers, indexed by `head`/`tail & LRU_MASK`,
  together with its membership bitmap. It covers push and pop, the seeding
  done by `open_dpif`, and the reconciliation after a complete port dump.
  The ring is proved to behave exactly like a FIFO of distinct ports in
  `[1, 1024)`, with bit `p` set iff `p` is queued and port 0 always marked.
- **Datapath handle** (`dpif.dfy`, module `Dpif`):
  - `open_dpif`;
  - `port_add` with its retry loop over popped candidates;
  - `port_del`;
  - the port queries;
  - the port dump iterator (`dump_start`, `dump_next`, `dump_done`).
- **Port-change queue** (`changes.dfy`, module `Changes`). This covers
  `port_changed`, `port_poll` and `port_poll_wait`, modelled as a set of
  names plus a sticky overflow flag.
- **Upcalls** (`upcall.dfy`, module `Upcall`):
  - `parse_odp_packet`;
  - the bounded receive loop of `dpif_linux_recv`, which reads at most 50
    datagrams;
  - `recv_set_mask`, including the multicast groups it leaves and joins.
- **Queue-to-priority mapping** (`priority.dfy`, module `Priority`). This is
  `queue_to_priority` in unsigned 32-bit arithmetic.
- **Resource translators**:
  - vport (`vport.dfy`), datapath (`datapath.dfy`) and flow (`flow.dfy`)
    `*_to_ofpbuf` / `*_from_ofpbuf` pairs;
  - the `*_transact` reply-reset rule;
  - `flow_put` request construction and `flow_get_stats` defaults;
  - the `flow_dump_next` loop, which skips flows that disappear while being
    fetched.
- **Shared definitions**: `netlink.dfy` (module `Netlink`), `protocol.dfy`
  (module `Protocol`: command numbers, attribute slots, flags) and
  `types.dfy` (module `Types`: fixed-width integers, `Option`, `Result`,
  errno values).

A Netlink message is modelled as a datatype: family id, flags, command,
`dp_ifindex`, and a map from attribute slot to a typed value (u8, u32, u64,
string, bytes, counters, nested map, flag). Attribute-policy parsing
(`nl_policy_parse`) is modelled by kind and length: declared slots are
checked, required slots must be present, and undeclared slots are ignored.
A string's length is counted in characters, each standing for one byte.

The kernel is a parameter: a function from request message to reply message
or errno. The same holds for other I/O:

- the multicast socket is a sequence of datagrams;
- socket creation and group joins are given as status inputs;
- the end of a dump is the end of a sequence of reply messages.

Fields the C code leaves NULL when absent become `Option`. The 16-bit truncation of the
reported port number in `port_add` is written out as `% 0x1_0000`.

## Model

| member | source | states |
|---|---|---|
| PortAlloc.Push | lib/dpif-linux.c:179-186 | The invariant is kept: no duplicates, at most 1023 queued, port 0 marked and never queued, bit p set iff p is queued. A port in [1, 1024) that is not queued is appended. Any other port leaves the queue unchanged. |
| PortAlloc.Pop | lib/dpif-linux.c:188-200 | Popping an empty ring returns UINT32_MAX and changes nothing. Otherwise it returns the oldest queued port and dequeues it, and the invariant is kept. |
| PortAlloc.PopN | lib/dpif-linux.c:188-200 | n pops in a row dequeue the first n ports, or empty the ring when fewer are queued. The invariant is kept. |
| PortAlloc.QueueBound | lib/dpif-linux.c:179-186 | Under the invariant fewer than LRU_MAX_PORTS ports are queued, so head - tail never exceeds the ring size. |
| PortAlloc.Step | lib/dpif-linux.c:179-200 | One push or pop on the ring moves its queue exactly as the reference FIFO moves, and keeps the invariant. |
| PortAlloc.Run | lib/dpif-linux.c:179-200 | Any sequence of pushes and pops keeps the invariant and agrees with the reference FIFO run over the same operations. |
| PortAlloc.NoDoubleHandout | lib/dpif-linux.c:188-200 | Two consecutive pops never hand out the same port. |
| PortAlloc.Open | lib/dpif-linux.c:279-284 | After seeding, the invariant holds and the queue is exactly 1, 2, ..., 1023 in that order. |
| PortAlloc.PushNext | lib/dpif-linux.c:282-284 | When the queue holds 1, ..., i-1, pushing i appends it, so the queue then holds 1, ..., i. |
| PortAlloc.Reconcile | lib/dpif-linux.c:571-579 | The invariant is kept and the old queue is a prefix of the new one. Below LRU_MAX_PORTS, a port is queued afterwards iff it is not port 0 and it was either queued before or not seen. The added ports come in increasing order. |
| PortAlloc.ReconcileStep | lib/dpif-linux.c:574-578 | The loop invariant of the reconciliation advances by one port. |
| PortAlloc.DistinctElems | lib/dpif-linux.c:179-186 | A duplicate-free queue has as many distinct ports as entries. This is the counting step behind the bound. |
| Dpif.OpenDpif | lib/dpif-linux.c:253-290 | A registration error is returned as is. Otherwise the handle is valid, takes the datapath's index and groups, listens to nothing, has no pending changes, and offers ports 1..1023 in increasing order. |
| Dpif.AddRequest | lib/dpif-linux.c:390-403 | The NEW request carries this datapath, the candidate number, the type and the name. Options are attached iff they are non-empty. |
| Dpif.Tried | lib/dpif-linux.c:412-422 | The loop makes between 1 and ring size + 1 tries. Every try but the last was answered EBUSY or EFBIG. The last is answered with one of those only when the candidate was UINT32_MAX. So the loop stops exactly at the first non-retryable answer or when the ring is exhausted. |
| Dpif.RetryShift | lib/dpif-linux.c:412-422 | After a refused candidate is popped, the remaining tries see the candidates shifted by one. |
| Dpif.Outcome | lib/dpif-linux.c:416-420 | The status is the last try's status. A port number is reported iff that status is 0, and it is the reply's number truncated to 16 bits. |
| Dpif.AddWith | lib/dpif-linux.c:412-424 | Exactly the offered queued ports leave the ring (the first min(tries, queue length)). The invariant is kept, and the result is the outcome of the last try. |
| Dpif.PortAdd | lib/dpif-linux.c:379-425 | An UNSPEC type gives EINVAL and changes nothing. Otherwise the retry loop runs against the NEW transactions for the successive candidates, and only the allocator changes. |
| Dpif.DelRequest | lib/dpif-linux.c:434-437 | The DEL request names the port number and this datapath, and carries no name and no type. |
| Dpif.PortDel | lib/dpif-linux.c:427-443 | The status is the DEL transaction's status. The number is pushed back (as a FIFO push) iff the status is 0. On failure nothing changes, and the handle stays valid. |
| Dpif.PortQuery | lib/dpif-linux.c:446-469 | Fails iff the GET transaction fails, with its error. Success reports the name, type and number of the decoded reply. |
| Dpif.PortQueryByNumber | lib/dpif-linux.c:471-476 | The query carries the port number and no name. It succeeds iff the GET transaction does, fails with that transaction's error, and on success reports the name, type and number of the decoded reply. |
| Dpif.PortQueryByName | lib/dpif-linux.c:478-483 | The query carries the name and the port number 0. It succeeds iff the GET transaction does, fails with that transaction's error, and on success reports the name, type and number of the decoded reply. |
| Dpif.PortDumpStart | lib/dpif-linux.c:512-533 | The dump request has no attributes, so every port is listed. The iterator starts with nothing seen and not complete. |
| Dpif.PortDumpNext | lib/dpif-linux.c:536-562 | EOF iff no reply is left, and EOF marks the dump complete. A reply that does not decode gives its error. Otherwise the port returned is the decoded reply's name, type and number, and that number is recorded as seen iff it is below LRU_MAX_PORTS. |
| Dpif.DumpAll | lib/dpif-linux.c:536-562 | When every reply decodes, the dump ends complete, having seen the ports of all replies. When some reply fails, completeness is unchanged. |
| Dpif.DumpAllStep | lib/dpif-linux.c:536-562 | One successful dump_next step preserves DumpAll's contract. |
| Dpif.ReportedSplit | lib/dpif-linux.c:554-556 | The ports reported by two runs of replies are the union of the ports reported by each run. |
| Dpif.PortDumpDone | lib/dpif-linux.c:565-584 | The dump's status is returned. A complete dump reconciles the ring (see PortAlloc.Reconcile). An incomplete dump leaves the handle unchanged. |
| Changes.Empty | lib/dpif-linux.c:275-276 | The queue starts with no names and no overflow. |
| Changes.PortChanged | lib/dpif-linux.c:1188-1206 | A missing vport sets the overflow flag and nothing else does. The set only grows. A new name can only come from a relevant event (this datapath, NEW/DEL/SET), and a relevant event's name is in the set afterwards. |
| Changes.DeliverCollects | lib/dpif-linux.c:1188-1206 | Any run of events leaves exactly the old names plus the names of the relevant events, with duplicates collapsed. Overflow is set iff it was set before or some event was missing. |
| Changes.PortPoll | lib/dpif-linux.c:586-610 | EAGAIN iff nothing is pending, where pending is exactly port_poll_wait's wake-up condition (Changes.Pending). Overflow gives ENOBUFS and clears the flag and the names. Without overflow, pending names always give status 0 and one of the names, which is removed from the set. |
| Changes.PollAfterChanges | lib/dpif-linux.c:586-601 | After any number of relevant changes to one port on a quiet queue, the first poll returns that name with status 0 and the second poll gives EAGAIN with no name. |
| Priority.QueueToPriority | lib/dpif-linux.c:925-935 | A queue id below 0xf000 gives status 0 and priority class 1:(id+1), with major number 1 and minor number id+1. Any other id gives EINVAL and returns the caller's priority untouched. |
| Priority.Injective | lib/dpif-linux.c:925-935 | Distinct valid queue ids get distinct priorities, and the minor number is never 0. |
| Upcall.TypeOfCmd | lib/dpif-linux.c:974-980 | Exactly MISS, ACTION and SAMPLE are recognised, each as its own upcall type. |
| Upcall.ParseOdpPacket | lib/dpif-linux.c:938-1003 | EINVAL for another family's message, for a message the policy rejects (no packet, a packet shorter than an Ethernet header, or no key), or for a command that is not an upcall. It succeeds iff the family matches, the policy admits the attributes and the command is an upcall. Success gives the datapath index and the type matching the command. The packet, key, user data, sample pool and actions are the attribute values, with absent user data and sample pool read as 0 and absent actions as none. |
| Upcall.RoundTrip | lib/dpif-linux.c:938-1003 | An upcall whose packet holds an Ethernet header is decoded back, with its datapath index, from the message that carries it. |
| Upcall.GroupsOf | lib/dpif-linux.c:871-889 | A group is listed iff its upcall type's bit is in the mask. |
| Upcall.JoinError | lib/dpif-linux.c:881-892 | The status is 0 iff every join succeeds. Otherwise it is the error of the last failing join. |
| Upcall.RecvSetMask | lib/dpif-linux.c:850-894 | An unchanged mask does nothing, and a zero mask drops the subscription. When no socket exists and creating one fails, that error is returned with the subscription unchanged and no group left or joined. Otherwise the subscription becomes (socket, new mask), the old mask's groups are left and the new mask's groups joined, and the join status is returned. "A socket exists iff some bit is set" is kept. |
| Upcall.RecvFrom | lib/dpif-linux.c:1017-1038 | The loop reads at most 50 datagrams. Every datagram before the deciding one is skipped. Running out of datagrams or of the batch gives EAGAIN. The deciding datagram's verdict (its upcall, or its error) is the result. |
| Upcall.Recv | lib/dpif-linux.c:1005-1039 | EAGAIN without a socket. Status 0 iff an upcall is returned, and that upcall is the first datagram that is neither an error nor skipped. A datagram is skipped when it decodes but belongs to another datapath or to an unselected type. When datagram k (k < 50) is the first that is not skipped, it alone decides: its upcall with status 0, or its errno, with k + 1 datagrams consumed. When the first min(50, available) datagrams are all skipped, the result is EAGAIN with no upcall after reading all of them. |
| Upcall.RecvReadsOneBatch | lib/dpif-linux.c:1017 | Datagrams after the first 50 never affect the outcome. |
| Upcall.FirstDecisive | lib/dpif-linux.c:1017-1038 | When datagram k is the first that is not skipped, it alone decides the outcome. |
| Netlink.PolicyParse | lib/dpif-linux.c:1246-1251 | A successful parse yields exactly the declared slots that are present, with their values unchanged. Every required slot is present and every value has its declared kind. |
| Netlink.ParsesWhole | lib/dpif-linux.c:1246-1251 | A map of declared slots only, each of its declared kind and including every required slot, parses to itself. |
| Netlink.MissingRequiredRejected | lib/dpif-linux.c:1246-1251 | An absent required slot makes the parse fail. |
| Netlink.WrongKindRejected | lib/dpif-linux.c:1246-1251 | A present slot of the wrong kind makes the parse fail. |
| Netlink.UnknownSlotsIgnored | lib/dpif-linux.c:1246-1251 | Undeclared slots never change the parse result. |
| Netlink.AgreeingMapsParseAlike | lib/dpif-linux.c:1246-1251 | Two maps that agree on the declared slots parse alike. |
| Vport.ToMsg | lib/dpif-linux.c:1277-1318 | The port number is sent iff it is not UINT32_MAX, the type iff it is not UNSPEC, the name iff it is set, and the ifindex iff it is non-zero. Statistics, address and options are sent iff present. Every slot sent carries the descriptor's own value. Only declared slots are sent. |
| Vport.FromMsg | lib/dpif-linux.c:1215-1272 | Success exactly when the family matches and every attribute passes the policy (port number, type and name present). Success keeps the command and index and returns the sent port number, type and name. Stats, address and options are present iff they were sent, with the sent values. The ifindex is the sent one, or 0 when absent. |
| Vport.RoundTrip | lib/dpif-linux.c:1215-1318 | A descriptor with port number, type and a name that fits IFNAMSIZ decodes back to itself. Omitted fields come back absent. |
| Vport.UnknownSlotsIgnored | lib/dpif-linux.c:1218-1251 | Extra attributes in undeclared slots never change what is decoded. |
| Vport.Transact | lib/dpif-linux.c:1335-1369 | A cached initialisation error is returned with the reply reset. Otherwise the kernel's error is returned unchanged. When a reply is wanted, a decode error is returned unchanged and success gives the decoded reply. When no reply is wanted, a kernel answer gives status 0. The reply is reset whenever the status is non-zero or no reply was wanted. |
| Datapath.ToMsg | lib/dpif-linux.c:1475-1498 | Name, fragment handling and sampling are sent iff set. Statistics and multicast groups are never sent. |
| Datapath.GroupsFromNest | lib/dpif-linux.c:1442-1468 | The nested group list is accepted iff its own policy admits it. The MISS, ACTION and SAMPLE groups are the u32 values of the MISS, ACTION and SAMPLE packet-command slots, each 0 when absent. |
| Datapath.GroupsRoundTrip | lib/dpif-linux.c:1442-1468 | Decoding the group list the kernel would send for a set of groups gives back exactly those groups, each under its own upcall type. |
| Datapath.FromMsg | lib/dpif-linux.c:1394-1471 | EINVAL on another family or a missing name. It succeeds iff the family matches, the policy admits the attributes and any group list is accepted. Success keeps the command, the index and the name sent. The statistics are the four counters sent, or zero when none were sent. Fragment handling is the u32 sent, or 0 (unspecified). Sampling is present iff sent, with its value. The multicast groups are those decoded from the nested list, or all 0 when no list was sent. |
| Datapath.RoundTrip | lib/dpif-linux.c:1394-1498 | A named request without kernel-only fields decodes back to itself. |
| Datapath.Transact | lib/dpif-linux.c:1529-1553 | Status 0 iff the kernel answers and, when wanted, the reply decodes. The kernel's errno, or the decoder's errno when a reply is wanted, is returned unchanged. A wanted reply is the decoded one. Otherwise it is reset. |
| Flow.ToMsg | lib/dpif-linux.c:1636-1665 | The key is sent iff non-empty, the actions iff present, and CLEAR iff set. Statistics, TCP flags and used time are never sent. The caller's message flags are added to REQUEST and ECHO. |
| Flow.FromMsg | lib/dpif-linux.c:1579-1631 | Success exactly when the family matches and every attribute passes the policy (the key is present). Success keeps flags, index and the sent key. Actions, stats, TCP flags and used time are present iff they were sent, with the sent values. The command and CLEAR are never decoded. |
| Flow.RequestParses | lib/dpif-linux.c:1582-1611 | A request's attributes pass the reply policy. CLEAR is dropped and the key and actions remain. |
| Flow.RoundTrip | lib/dpif-linux.c:1579-1665 | A request with a key decodes back to itself, except for the command, the added REQUEST and ECHO flags, and CLEAR. |
| Flow.Transact | lib/dpif-linux.c:1681-1705 | Status 0 iff the kernel answers and, when wanted, the reply decodes. The kernel's errno, or the decoder's errno when a reply is wanted, is returned unchanged. A wanted reply is the decoded one. Otherwise it is reset. |
| Flow.GetStats | lib/dpif-linux.c:1708-1720 | Packet and byte counts come from the statistics when present and are 0 otherwise. |
| Flow.StatsOfReply | lib/dpif-linux.c:1708-1720 | For a decoded reply, the counters, used time and TCP flags are those of its attributes, each 0 when absent. |
| Flow.PutRequest | lib/dpif-linux.c:665-676 | The request is NEW when creation is allowed and SET otherwise. It is NLM_F_CREATE unless modification is allowed, CLEAR iff zeroing statistics, and its actions are always present. |
| Flow.PutAlwaysSendsActions | lib/dpif-linux.c:670-672 | A put message always carries an ACTIONS attribute, which is empty when the caller has no actions. |
| Flow.Put | lib/dpif-linux.c:654-685 | The status is exactly the put transaction's status, with a reply requested iff statistics are wanted. Statistics are returned iff the status is 0 and they were asked for. They are then the statistics of the decoded reply. |
| Flow.GetRequest | lib/dpif-linux.c:613-626 | The GET request for one key carries no actions. |
| Flow.JudgeMeaning | lib/dpif-linux.c:757-774 | A message that does not decode stops the dump with the decoder's error. Only a flow lacking wanted actions is ever passed over. A flow that needs no fetch is produced as decoded. |
| Flow.DumpFrom | lib/dpif-linux.c:752-776 | Passed-over messages are consumed until one is not passed over. The loop gives EOF when the messages run out, 0 for a produced flow, and the error for a stopping one. |
| Flow.StepOver | lib/dpif-linux.c:744-791 | The messages not yet consumed are a suffix. EOF iff all messages were passed over. Otherwise every consumed message before the last was passed over, and the last one produced the returned flow (status 0) or stopped with the returned error. |
| Flow.DumpNext | lib/dpif-linux.c:744-791 | The same, stated over the dump messages themselves. |

## Left out

- Byte-level TLV layout, alignment and padding are not modelled; attributes are typed values in a map. `nl_policy_parse` and `nl_parse_nested` live in `lib/netlink.c`, which is not part of this model. They are modelled by kind and length bounds only.
- Netlink.Fits: a string's length is counted in Dafny characters, not encoded bytes, so a name of multi-byte characters passes the `IFNAMSIZ` bound in the model but not in C. A string that contains a NUL is not cut short at it, as C would read it. Round trips such as `Vport.RoundTrip` therefore hold for character strings, and names are not modelled as byte strings.
- The socket layer is replaced by inputs: `nl_sock_transact`, `nl_dump_*`, `nl_sock_recv`, `nl_sock_create`, joining and leaving groups, draining and waiting. Leaving a group has no observable result here, so the groups left are only reported.
- `dpif_linux_init` (family and group lookups, lib/dpif-linux.c:1100-1139) is reduced to the cached status carried by the channel. Only the vport transaction consults that status, as in the code.
- The `nln` notifier registration in `open_dpif` is reduced to its status input. Decoding notifications happens in `dpif_linux_nln_parse`; it delivers a decoded vport, or none when notifications were lost.
- The ethtool LRO call in `port_add` for NETDEV ports (lib/dpif-linux.c:408-410) is left out, because it is a foreign library call with no effect on the result.
- `dpif_linux_vport_send`, `execute`, `get_stats`, `get/set_drop_frags`, `get/set_sflow_probability`, `flow_get`, `flow_del`, `flow_flush`, `flow_dump_start/done`, `enumerate`, `open`, `close`, `destroy`, `run`, `wait`, `recv_get_mask`, `recv_wait`, `recv_purge`, `get_max_ports` and `is_internal_device` are left out. They are thin wrappers around transactions or I/O that add no logic beyond the translators and transactions modelled here.
- The netdev type strings that `dpif_linux_port_query__` (lib/dpif-linux.c:464) and `port_dump_next` (lib/dpif-linux.c:559) obtain from `netdev_vport_get_netdev_type` are left out. The queried and dumped ports carry the numeric vport type instead.
- Unaligned 64-bit reads in `flow_get_stats` are not modelled; statistics are plain naturals.
- `ofpbuf` ownership, `xstrdup`/`free`, logging, rate limits and the `dpif_class` table are left out, because none of them carry logic.
- `PortAlloc.Run`: `head` and `tail` are unbounded naturals, so the wrap-around of these `size_t` counters (lib/dpif-linux.c:146-147) after 2^64 pushes on a 64-bit host is not modelled. Because LRU_MAX_PORTS divides that modulus, `& LRU_MASK` indexing and `head - tail` would be unaffected by it.
- `Flow.ToMsg`: NULL actions with a non-zero length cannot be represented, because actions are an `Option` of bytes that carries its own length.
- The numbering of `enum dpif_upcall_type` comes from `lib/dpif.h`, which is not part of this model. MISS, ACTION and SAMPLE are taken as 0, 1 and 2.
- Numeric values of commands and attribute slots come from the datapath protocol header, which is not part of this model. The conventional values are used, and only their distinctness matters to the proofs.

## Notes

- `dpif_linux_port_dump_next` sets `complete` whenever `nl_dump_next` reports no further message (lib/dpif-linux.c:544-547). The field's comment describes it as "completed without error". The model follows the code, so any end of the reply sequence marks the dump complete.
- `dpif_linux_port_dump_start` builds its vport request with the datapath command `OVS_DP_CMD_GET` (lib/dpif-linux.c:524). The model sends that command value as written.
- `dpif_linux_port_query_by_name` passes port number 0, not `UINT32_MAX`. The request therefore carries both a name and a port number, as `Dpif.PortQueryByName` states.
- `Dpif.Tried` and `Dpif.AddWith` take the kernel's answer per candidate as a function. `Dpif.PortAdd` binds that function to the vport NEW transaction for each candidate.
- The receive loop and the flow-dump loop are each modelled in two parts: a per-message verdict, and a loop over the sequence of verdicts.

=== FILE: changes.dfy ===
/** Port-change notifications of one open datapath: the names of ports the
    kernel reported as added, deleted or modified, collected as a set, plus
    a sticky flag recording that notifications were lost. */
module Changes {
  import opened Types
  import opened Protocol
  import Vport

  datatype ChangeQueue = ChangeQueue(changed: set<string>, overflow: bool)

  /** The state open_dpif starts from: nothing changed, nothing lost. */
  function Empty(): (q: ChangeQueue)
    ensures q.changed == {} && !q.overflow
  {
    ChangeQueue({}, false)
  }

  /** A notification this datapath cares about: it is about one of its own
      ports and reports a creation, deletion or modification. */
  predicate Relevant(dpIfindex: i32, v: Vport.Vport)
  {
    && v.dpIfindex == dpIfindex
    && (v.cmd == OVS_VPORT_CMD_NEW || v.cmd == OVS_VPORT_CMD_DEL || v.cmd == OVS_VPORT_CMD_SET)
  }

  /** A notification as the notifier delivers it: a decoded port (which
      always carries a name), or None when notifications were lost. */
  predicate Delivered(event: Option<Vport.Vport>)
  {
    event.Some? ==> event.value.name.Some?
  }

  /** dpif_linux_port_changed: a lost-notification event sets the overflow
      flag; a relevant port event adds the port's name; every other event
      is ignored. */
  function PortChanged(q: ChangeQueue, dpIfindex: i32, event: Option<Vport.Vport>): (q': ChangeQueue)
    requires Delivered(event)
    ensures q'.overflow <==> q.overflow || event.None?
    ensures q.changed <= q'.changed
    ensures forall n :: n in q'.changed && n !in q.changed ==>
              event.Some? && Relevant(dpIfindex, event.value) && event.value.name == Some(n)
    ensures event.Some? && Relevant(dpIfindex, event.value) ==> event.value.name.value in q'.changed
  {
    match event
    case None => q.(overflow := true)
    case Some(v) =>
      if Relevant(dpIfindex, v) then q.(changed := q.changed + {v.name.value}) else q
  }

  /** The names a run of events reports: those of the relevant port events. */
  function Reported(dpIfindex: i32, events: seq<Option<Vport.Vport>>): set<string>
    requires forall k :: 0 <= k < |events| ==> Delivered(events[k])
  {
    set k | 0 <= k < |events| && events[k].Some? && Relevant(dpIfindex, events[k].value)
              && events[k].value.name.Some?
          :: events[k].value.name.value
  }

  /** Delivers a run of events in order. */
  function Deliver(q: ChangeQueue, dpIfindex: i32, events: seq<Option<Vport.Vport>>): ChangeQueue
    requires forall k :: 0 <= k < |events| ==> Delivered(events[k])
    decreases |events|
  {
    if |events| == 0 then q else Deliver(PortChanged(q, dpIfindex, events[0]), dpIfindex, events[1..])
  }

  /** After a run of events the set holds exactly the earlier names and the
      names of the relevant events, however often each was reported, and
      the overflow flag is set exactly when it was set before or some event
      reported lost notifications. */
  lemma {:induction false} DeliverCollects(q: ChangeQueue, dpIfindex: i32, events: seq<Option<Vport.Vport>>)
    requires forall k :: 0 <= k < |events| ==> Delivered(events[k])
    ensures Deliver(q, dpIfindex, events).changed == q.changed + Reported(dpIfindex, events)
    ensures Deliver(q, dpIfindex, events).overflow <==>
              q.overflow || exists k :: 0 <= k < |events| && events[k].None?
    decreases |events|
  {
    if |events| > 0 {
      var q1 := PortChanged(q, dpIfindex, events[0]);
      DeliverCollects(q1, dpIfindex, events[1..]);
      var tail := Reported(dpIfindex, events[1..]);
      var all := Reported(dpIfindex, events);
      forall n | n in all
        ensures n in q1.changed + tail
      {
        var k :| 0 <= k < |events| && events[k].Some? && Relevant(dpIfindex, events[k].value)
                 && events[k].value.name.value == n;
        if k > 0 {
          assert events[1..][k - 1] == events[k];
        }
      }
      forall n | n in tail
        ensures n in all
      {
        var k :| 0 <= k < |events[1..]| && events[1..][k].Some?
                 && Relevant(dpIfindex, events[1..][k].value) && events[1..][k].value.name.value == n;
        assert events[k + 1] == events[1..][k];
      }
      assert q1.changed - q.changed <= all;
      if exists k :: 0 <= k < |events| && events[k].None? {
        var k :| 0 <= k < |events| && events[k].None?;
        if k > 0 {
          assert events[1..][k - 1].None?;
        }
      }
      if exists k :: 0 <= k < |events[1..]| && events[1..][k].None? {
        var k :| 0 <= k < |events[1..]| && events[1..][k].None?;
        assert events[k + 1].None?;
      }
    }
  }

  /** dpif_linux_port_poll_wait: the poller is woken at once when a name or
      a lost-notification report is pending. */
  predicate Pending(q: ChangeQueue)
  {
    q.changed != {} || q.overflow
  }

  /** dpif_linux_port_poll: a pending overflow is reported as ENOBUFS and
      clears both the flag and the names (the caller must re-read every
      port); otherwise one pending name, chosen arbitrarily, is removed and
      returned; with nothing pending the result is EAGAIN. */
  method PortPoll(q: ChangeQueue) returns (error: nat, name: Option<string>, q': ChangeQueue)
    ensures error == EAGAIN <==> !Pending(q)
    ensures q.overflow ==> error == ENOBUFS && name.None? && q' == Empty()
    ensures !q.overflow ==> !q'.overflow
    ensures error == 0 <==> name.Some?
    ensures name.Some? ==> name.value in q.changed && q'.changed == q.changed - {name.value}
    ensures error == EAGAIN ==> q' == q
    ensures !q.overflow && q.changed != {} ==> error == 0
  {
    if q.overflow {
      return ENOBUFS, None, Empty();
    } else if q.changed != {} {
      var n :| n in q.changed;
      return 0, Some(n), q.(changed := q.changed - {n});
    } else {
      return EAGAIN, None, q;
    }
  }

  /** However often one port is reported changed, starting from a quiet
      queue the first poll returns its name and the next poll finds
      nothing left: repeated changes collapse into one report. */
  method PollAfterChanges(dpIfindex: i32, events: seq<Option<Vport.Vport>>, name: string)
    returns (e1: nat, n1: Option<string>, e2: nat, n2: Option<string>)
    requires 0 < |events|
    requires forall k :: 0 <= k < |events| ==>
               events[k].Some? && Relevant(dpIfindex, events[k].value) && events[k].value.name == Some(name)
    ensures e1 == 0 && n1 == Some(name)
    ensures e2 == EAGAIN && n2.None?
  {
    var q := Deliver(Empty(), dpIfindex, events);
    DeliverCollects(Empty(), dpIfindex, events);
    assert name in Reported(dpIfindex, events) by {
      assert events[0].value.name.value == name;
    }
    assert q.changed == {name};
    assert !q.overflow;
    var q1, q2;
    e1, n1, q1 := PortPoll(q);
    e2, n2, q2 := PortPoll(q1);
  }
}

=== FILE: datapath.dfy ===
/** The datapath translator: the datapath descriptor, its request encoding,
    its reply decoding (including the nested multicast-group list) and the
    datapath transaction. */
module Datapath {
  import opened Types
  import opened Protocol
  import opened Netlink

  /** struct ovs_dp_stats. */
  datatype DpStats = DpStats(nHit: u64, nMissed: u64, nLost: u64, nFlows: u64)

  /** One multicast group per upcall type; 0 when the kernel named none. */
  datatype McGroups = McGroups(miss: u32, action: u32, sample: u32)

  /** struct dpif_linux_dp. 'ipv4Frags' OVS_DP_FRAG_UNSPEC means "not set". */
  datatype Dp = Dp(
    cmd: u8,
    dpIfindex: i32,
    name: Option<string>,
    stats: DpStats,
    ipv4Frags: u32,
    sampling: Option<u32>,
    mcgroups: McGroups)

  const NO_STATS := DpStats(0, 0, 0, 0)
  const NO_GROUPS := McGroups(0, 0, 0)

  /** dpif_linux_dp_init. */
  function Init(): Dp
  {
    Dp(0, 0, None, NO_STATS, OVS_DP_FRAG_UNSPEC, None, NO_GROUPS)
  }

  const POLICY: Policy := map[
    OVS_DP_ATTR_NAME := Rule(KString(IFNAMSIZ), false),
    OVS_DP_ATTR_STATS := Rule(KCounters(DP_STATS_COUNTERS), true),
    OVS_DP_ATTR_IPV4_FRAGS := Rule(KU32, true),
    OVS_DP_ATTR_SAMPLING := Rule(KU32, true),
    OVS_DP_ATTR_MCGROUPS := Rule(KNest, true)]

  /** The nested multicast-group list is keyed by packet command. */
  const MCGROUP_POLICY: Policy := map[
    OVS_PACKET_CMD_MISS as nat := Rule(KU32, true),
    OVS_PACKET_CMD_ACTION as nat := Rule(KU32, true),
    OVS_PACKET_CMD_SAMPLE as nat := Rule(KU32, true)]

  /** dpif_linux_dp_to_ofpbuf: statistics and multicast groups are never
      sent; the other fields are sent when set. */
  function ToMsg(dp: Dp, family: u16): (m: Msg)
    ensures m.family == family && m.cmd == dp.cmd && m.dpIfindex == dp.dpIfindex
    ensures m.flags == NLM_F_REQUEST | NLM_F_ECHO
    ensures OVS_DP_ATTR_NAME in m.attrs <==> dp.name.Some?
    ensures OVS_DP_ATTR_IPV4_FRAGS in m.attrs <==> dp.ipv4Frags != OVS_DP_FRAG_UNSPEC
    ensures OVS_DP_ATTR_SAMPLING in m.attrs <==> dp.sampling.Some?
    ensures OVS_DP_ATTR_STATS !in m.attrs && OVS_DP_ATTR_MCGROUPS !in m.attrs
  {
    var attrs := map[];
    var attrs := PutIf(attrs, dp.name.Some?, OVS_DP_ATTR_NAME, Str(dp.name.GetOr([])));
    var attrs := PutIf(attrs, dp.ipv4Frags != OVS_DP_FRAG_UNSPEC, OVS_DP_ATTR_IPV4_FRAGS, U32(dp.ipv4Frags));
    var attrs := PutIf(attrs, dp.sampling.Some?, OVS_DP_ATTR_SAMPLING, U32(dp.sampling.GetOr(0)));
    Msg(family, NLM_F_REQUEST | NLM_F_ECHO, dp.cmd, dp.dpIfindex, attrs)
  }

  /** A u32 attribute's value, or 0 when the slot is absent. */
  function U32Or0(a: map<nat, AttrValue>, slot: nat): u32
    requires slot in a ==> a[slot].U32?
  {
    if slot in a then a[slot].u32 else 0
  }

  /** The multicast groups named in a nested list, or None if the list does
      not satisfy its policy. */
  function GroupsFromNest(inner: map<nat, AttrValue>): (r: Option<McGroups>)
    ensures r.Some? <==> PolicyParse(MCGROUP_POLICY, inner).Some?
    ensures r.Some? ==>
              && ReadsU32(inner, OVS_PACKET_CMD_MISS as nat, r.value.miss)
              && ReadsU32(inner, OVS_PACKET_CMD_ACTION as nat, r.value.action)
              && ReadsU32(inner, OVS_PACKET_CMD_SAMPLE as nat, r.value.sample)
  {
    match PolicyParse(MCGROUP_POLICY, inner)
    case None => None
    case Some(g) =>
      assert forall slot :: slot in g ==> Fits(g[slot], KU32);
      Some(McGroups(U32Or0(g, OVS_PACKET_CMD_MISS as nat),
                    U32Or0(g, OVS_PACKET_CMD_ACTION as nat),
                    U32Or0(g, OVS_PACKET_CMD_SAMPLE as nat)))
  }

  /** dpif_linux_dp_from_ofpbuf: EINVAL for another family's message, for a
      message without a name or otherwise rejected by the datapath policy,
      and for a multicast-group list its own policy rejects. */
  function FromMsg(m: Msg, family: u16): (r: Result<Dp>)
    ensures r.Err? ==> r.error == EINVAL
    ensures m.family != family || OVS_DP_ATTR_NAME !in m.attrs ==> r.Err?
    ensures r.Ok? ==> r.value.cmd == m.cmd && r.value.dpIfindex == m.dpIfindex
    ensures r.Ok? ==> Some(Str(r.value.name.GetOr([]))) == Lookup(m.attrs, OVS_DP_ATTR_NAME)
    ensures r.Ok? ==> (r.value.sampling.Some? <==> OVS_DP_ATTR_SAMPLING in m.attrs)
    ensures r.Ok? && OVS_DP_ATTR_STATS !in m.attrs ==> r.value.stats == NO_STATS
    ensures r.Ok? && OVS_DP_ATTR_STATS in m.attrs ==>
              var st := r.value.stats;
              m.attrs[OVS_DP_ATTR_STATS] == Counters([st.nHit, st.nMissed, st.nLost, st.nFlows])
    ensures r.Ok? ==> ReadsU32(m.attrs, OVS_DP_ATTR_IPV4_FRAGS, r.value.ipv4Frags)
    ensures r.Ok? ==> Lookup(m.attrs, OVS_DP_ATTR_SAMPLING) ==
                        if r.value.sampling.Some? then Some(U32(r.value.sampling.value)) else None
    ensures r.Ok? && OVS_DP_ATTR_MCGROUPS !in m.attrs ==> r.value.mcgroups == NO_GROUPS
    ensures r.Ok? && OVS_DP_ATTR_MCGROUPS in m.attrs ==>
              m.attrs[OVS_DP_ATTR_MCGROUPS].Nest?
              && GroupsFromNest(m.attrs[OVS_DP_ATTR_MCGROUPS].inner) == Some(r.value.mcgroups)
    ensures r.Ok? <==>
              && m.family == family
              && PolicyParse(POLICY, m.attrs).Some?
              && (OVS_DP_ATTR_MCGROUPS in m.attrs && m.attrs[OVS_DP_ATTR_MCGROUPS].Nest? ==>
                    GroupsFromNest(m.attrs[OVS_DP_ATTR_MCGROUPS].inner).Some?)
  {
    if m.family != family then Err(EINVAL)
    else
      match PolicyParse(POLICY, m.attrs)
      case None => Err(EINVAL)
      case Some(a) =>
        assert Fits(a[OVS_DP_ATTR_NAME], KString(IFNAMSIZ));
        assert OVS_DP_ATTR_STATS in a <==> OVS_DP_ATTR_STATS in m.attrs;
        assert OVS_DP_ATTR_IPV4_FRAGS in a <==> OVS_DP_ATTR_IPV4_FRAGS in m.attrs;
        assert OVS_DP_ATTR_SAMPLING in a <==> OVS_DP_ATTR_SAMPLING in m.attrs;
        assert OVS_DP_ATTR_MCGROUPS in a <==> OVS_DP_ATTR_MCGROUPS in m.attrs;
        var stats :=
          if OVS_DP_ATTR_STATS in a then
            var c := a[OVS_DP_ATTR_STATS].counters;
            DpStats(c[0], c[1], c[2], c[3])
          else NO_STATS;
        var frags := U32Or0(a, OVS_DP_ATTR_IPV4_FRAGS);
        var sampling :=
          if OVS_DP_ATTR_SAMPLING in a then Some(a[OVS_DP_ATTR_SAMPLING].u32) else None;
        var groups :=
          if OVS_DP_ATTR_MCGROUPS in a then GroupsFromNest(a[OVS_DP_ATTR_MCGROUPS].inner)
          else Some(NO_GROUPS);
        if groups.None? then Err(EINVAL)
        else Ok(Dp(m.cmd, m.dpIfindex, Some(a[OVS_DP_ATTR_NAME].str), stats, frags,
                   sampling, groups.value))
  }

  /** The nested group list the kernel sends: one u32 per packet command
      whose group is not 0. */
  function GroupsToNest(g: McGroups): map<nat, AttrValue>
  {
    var inner := PutIf(map[], g.miss != 0, OVS_PACKET_CMD_MISS as nat, U32(g.miss));
    var inner := PutIf(inner, g.action != 0, OVS_PACKET_CMD_ACTION as nat, U32(g.action));
    PutIf(inner, g.sample != 0, OVS_PACKET_CMD_SAMPLE as nat, U32(g.sample))
  }

  /** Each upcall type gets back the group the kernel named for its packet
      command, so no two types' groups are ever exchanged. */
  lemma GroupsRoundTrip(g: McGroups)
    ensures GroupsFromNest(GroupsToNest(g)) == Some(g)
  {
    ParsesWhole(MCGROUP_POLICY, GroupsToNest(g));
  }

  /** A request descriptor whose encoding decodes back to itself: it has a
      name that fits an interface name buffer and carries no fields that
      only the kernel reports. */
  predicate Encodable(dp: Dp)
  {
    && dp.name.Some? && |dp.name.value| < IFNAMSIZ
    && dp.stats == NO_STATS
    && dp.mcgroups == NO_GROUPS
  }

  lemma RoundTrip(dp: Dp, family: u16)
    requires Encodable(dp)
    ensures FromMsg(ToMsg(dp, family), family) == Ok(dp)
  {
    var m := ToMsg(dp, family);
    ParsesWhole(POLICY, m.attrs);
  }

  /** dpif_linux_dp_transact: the request is encoded and sent; when a reply
      is wanted it is decoded, and on any failure it is reset. */
  function Transact(g: Genl, request: Dp, wantReply: bool): (r: Reply<Dp>)
    ensures r.error != 0 || !wantReply ==> r.reply == Init()
    ensures r.error == 0 <==>
              && g.kernel(ToMsg(request, g.families.datapath)).Ok?
              && (wantReply ==> FromMsg(g.kernel(ToMsg(request, g.families.datapath)).value,
                                        g.families.datapath).Ok?)
    ensures r.error == 0 && wantReply ==>
              Ok(r.reply) == FromMsg(g.kernel(ToMsg(request, g.families.datapath)).value,
                                     g.families.datapath)
    ensures match g.kernel(ToMsg(request, g.families.datapath))
            case Err(e) => r.error == e
            case Ok(m) =>
              r.error == if wantReply && FromMsg(m, g.families.datapath).Err?
                         then FromMsg(m, g.families.datapath).error else 0
  {
    match g.kernel(ToMsg(request, g.families.datapath))
    case Err(e) => Reply(e, Init())
    case Ok(m) =>
      if !wantReply then Reply(0, Init())
      else
        match FromMsg(m, g.families.datapath)
        case Err(e) => Reply(e, Init())
        case Ok(dp) => Reply(0, dp)
  }
}

=== FILE: dpif.dfy ===
/** One open Linux datapath: its identity, its upcall subscription, its
    port-change queue and its free-port allocator, and the port operations
    that drive the allocator. */
module Dpif {
  import opened Types
  import opened Protocol
  import opened Netlink
  import Vport
  import Datapath
  import PortAlloc
  import Changes
  import Upcall

  /** struct dpif_linux, without the notifier registration and the socket
      handles (the subscription records whether a socket exists). */
  datatype Dpif = Dpif(
    dpIfindex: i32,
    mcgroups: Datapath.McGroups,
    sub: Upcall.Subscription,
    changes: Changes.ChangeQueue,
    lru: PortAlloc.Lru)

  predicate Valid(d: Dpif)
  {
    PortAlloc.Inv(d.lru) && Upcall.SockIffListening(d.sub)
  }

  /** open_dpif: fails with the notifier registration's error; otherwise the
      handle takes the datapath's index and multicast groups, listens for
      nothing, has no pending changes, and offers ports 1 .. 1023 in
      increasing order. */
  method OpenDpif(dp: Datapath.Dp, registerError: nat) returns (r: Result<Dpif>)
    ensures registerError != 0 ==> r == Err(registerError)
    ensures registerError == 0 ==>
              && r.Ok? && Valid(r.value)
              && r.value.dpIfindex == dp.dpIfindex && r.value.mcgroups == dp.mcgroups
              && r.value.sub == Upcall.UNSUBSCRIBED
              && r.value.changes == Changes.Empty()
              && |PortAlloc.Queue(r.value.lru)| == PortAlloc.LRU_MAX_PORTS - 1
              && forall k :: 0 <= k < |PortAlloc.Queue(r.value.lru)| ==> PortAlloc.Queue(r.value.lru)[k] == k + 1
  {
    if registerError != 0 {
      return Err(registerError);
    }
    var lru := PortAlloc.Open();
    return Ok(Dpif(dp.dpIfindex, dp.mcgroups, Upcall.UNSUBSCRIBED, Changes.Empty(), lru));
  }

  // ---------------------------------------------------------------------
  // Adding and deleting ports.

  /** The request dpif_linux_port_add sends for one candidate port number;
      options are attached only when there are some. */
  function AddRequest(d: Dpif, name: string, vportType: u32, options: seq<byte>, candidate: u32): (v: Vport.Vport)
    ensures v.cmd == OVS_VPORT_CMD_NEW && v.dpIfindex == d.dpIfindex && v.portNo == candidate
    ensures v.vportType == vportType && v.name == Some(name)
    ensures v.options.Some? <==> |options| > 0
  {
    Vport.Init().(cmd := OVS_VPORT_CMD_NEW, dpIfindex := d.dpIfindex, portNo := candidate,
                  vportType := vportType, name := Some(name),
                  options := if |options| > 0 then Some(options) else None)
  }

  /** The errors after which port_add tries the next candidate. */
  predicate Retryable(error: nat)
  {
    error == EBUSY || error == EFBIG
  }

  /** The k-th candidate successive pops hand out from queue q: its ports
      in order, then UINT32_MAX. */
  function Candidate(q: seq<u16>, k: nat): u32
  {
    if k < |q| then q[k] as u32 else UINT32_MAX
  }

  /** The first n candidates. */
  function Candidates(q: seq<u16>, n: nat): (c: seq<u32>)
    ensures |c| == n && forall k :: 0 <= k < n ==> c[k] == Candidate(q, k)
  {
    seq(n, k requires 0 <= k < n => Candidate(q, k))
  }

  /** The kernel's answers to port_add's tries: for each candidate, the NEW
      transaction offering it, with the reply wanted. */
  function Attempts(g: Genl, d: Dpif, name: string, vportType: u32, options: seq<byte>): u32 -> Reply<Vport.Vport>
  {
    (candidate: u32) => Vport.Transact(g, AddRequest(d, name, vportType, options, candidate), true)
  }

  function Min(a: nat, b: nat): nat
  {
    if a <= b then a else b
  }

  /** How many candidates port_add offers from queue q when answer(c) is the
      kernel's answer to candidate c: it moves on exactly while a queued port
      was offered and the answer was EBUSY or EFBIG, so every try but the
      last was refused with one of those, and the last is refused with one
      only when the queue ran out. */
  function Tried(q: seq<u16>, answer: u32 -> Reply<Vport.Vport>): (n: nat)
    ensures 1 <= n <= |q| + 1
    ensures forall k :: 0 <= k < n - 1 ==> Retryable(answer(Candidate(q, k)).error)
    ensures Retryable(answer(Candidate(q, n - 1)).error) ==> Candidate(q, n - 1) == UINT32_MAX
    decreases |q|
  {
    if |q| > 0 && Retryable(answer(q[0] as u32).error) then
      var n := Tried(q[1..], answer);
      RetryShift(q, answer, n);
      n + 1
    else
      1
  }

  /** Dropping a candidate the kernel refused with a retryable error shifts
      the remaining candidates by one. */
  lemma RetryShift(q: seq<u16>, answer: u32 -> Reply<Vport.Vport>, n: nat)
    requires 0 < |q| && Retryable(answer(Candidate(q, 0)).error)
    requires 1 <= n <= |q[1..]| + 1
    requires forall k :: 0 <= k < n - 1 ==> Retryable(answer(Candidate(q[1..], k)).error)
    ensures Candidate(q[1..], n - 1) == Candidate(q, n)
    ensures forall k :: 0 <= k < n ==> Retryable(answer(Candidate(q, k)).error)
  {
    forall k | 0 < k < n
      ensures Retryable(answer(Candidate(q, k)).error)
    {
      assert Candidate(q[1..], k - 1) == Candidate(q, k);
    }
  }

  /** The outcome of port_add's retry loop: the last status, the port number
      reported, the allocator afterwards and the candidates offered. */
  datatype Added = Added(error: nat, portNo: Option<u16>, lru: PortAlloc.Lru, tried: seq<u32>)

  /** The result of n tries from queue q: the candidates offered, the last
      answer's status, and the port number it carries, reported as the
      16-bit value the caller receives exactly when that status is 0. */
  function Outcome(q: seq<u16>, n: nat, answer: u32 -> Reply<Vport.Vport>, lru: PortAlloc.Lru): (r: Added)
    requires 1 <= n
    ensures r.lru == lru && r.tried == Candidates(q, n)
    ensures var last := answer(Candidate(q, n - 1));
            && r.error == last.error
            && (r.portNo.Some? <==> r.error == 0)
            && (r.portNo.Some? ==> r.portNo.value == last.reply.portNo % 0x1_0000)
  {
    var last := answer(Candidate(q, n - 1));
    Added(last.error,
          if last.error == 0 then Some((last.reply.portNo % 0x1_0000) as u16) else None,
          lru,
          Candidates(q, n))
  }

  /** port_add's retry loop against the kernel's answers: as many candidates
      as Tried says are popped and offered (the last try lets the kernel pick
      a number when the ring ran out), each offered port leaves the ring,
      and the outcome is the last answer's. */
  function AddWith(lru: PortAlloc.Lru, answer: u32 -> Reply<Vport.Vport>): (r: Added)
    requires PortAlloc.Inv(lru)
    ensures PortAlloc.Inv(r.lru)
    ensures var q := PortAlloc.Queue(lru);
            var n := Tried(q, answer);
            && r == Outcome(q, n, answer, r.lru)
            && PortAlloc.Queue(r.lru) == q[Min(n, |q|)..]
  {
    var q := PortAlloc.Queue(lru);
    var n := Tried(q, answer);
    Outcome(q, n, answer, PortAlloc.PopN(lru, n))
  }

  /** dpif_linux_port_add. A port of unspecified type is EINVAL before
      anything is sent; otherwise the retry loop runs against the kernel's
      answers to the NEW requests, and only the allocator changes. */
  method PortAdd(g: Genl, d: Dpif, name: string, vportType: u32, options: seq<byte>)
    returns (error: nat, portNo: Option<u16>, d': Dpif, tried: seq<u32>)
    requires Valid(d)
    ensures Valid(d') && d' == d.(lru := d'.lru)
    ensures vportType == OVS_VPORT_TYPE_UNSPEC ==>
              error == EINVAL && portNo.None? && d' == d && tried == []
    ensures vportType != OVS_VPORT_TYPE_UNSPEC ==>
              Added(error, portNo, d'.lru, tried) == AddWith(d.lru, Attempts(g, d, name, vportType, options))
  {
    if vportType == OVS_VPORT_TYPE_UNSPEC {
      return EINVAL, None, d, [];
    }
    var r := AddWith(d.lru, Attempts(g, d, name, vportType, options));
    error, portNo, tried := r.error, r.portNo, r.tried;
    d' := d.(lru := r.lru);
  }

  /** The request dpif_linux_port_del sends. */
  function DelRequest(d: Dpif, portNo: u16): (v: Vport.Vport)
    ensures v.cmd == OVS_VPORT_CMD_DEL && v.dpIfindex == d.dpIfindex && v.portNo == portNo
    ensures v.name.None? && v.vportType == OVS_VPORT_TYPE_UNSPEC
  {
    Vport.Init().(cmd := OVS_VPORT_CMD_DEL, dpIfindex := d.dpIfindex, portNo := portNo)
  }

  /** dpif_linux_port_del: the port number goes back to the free ring (as a
      push, so only once and only below LRU_MAX_PORTS) exactly when the
      kernel confirmed the deletion; nothing else changes. */
  function PortDel(g: Genl, d: Dpif, portNo: u16): (r: (nat, Dpif))
    requires Valid(d)
    ensures Valid(r.1) && r.1 == d.(lru := r.1.lru)
    ensures r.0 == Vport.Transact(g, DelRequest(d, portNo), false).error
    ensures r.0 != 0 ==> r.1 == d
    ensures r.0 == 0 ==>
              PortAlloc.Queue(r.1.lru) == PortAlloc.FifoStep(PortAlloc.Queue(d.lru), PortAlloc.PushOp(portNo))
  {
    var error := Vport.Transact(g, DelRequest(d, portNo), false).error;
    if error == 0 then (0, d.(lru := PortAlloc.Push(d.lru, portNo))) else (error, d)
  }

  // ---------------------------------------------------------------------
  // Querying ports.

  /** struct dpif_port: a port's name, vport type and number. */
  datatype DpifPort = DpifPort(name: string, vportType: u32, portNo: u32)

  function PortOf(v: Vport.Vport): DpifPort
    requires v.name.Some?
  {
    DpifPort(v.name.value, v.vportType, v.portNo)
  }

  /** The request dpif_linux_port_query__ sends. */
  function QueryRequest(d: Dpif, portNo: u32, name: Option<string>): Vport.Vport
  {
    Vport.Init().(cmd := OVS_VPORT_CMD_GET, dpIfindex := d.dpIfindex, portNo := portNo, name := name)
  }

  /** dpif_linux_port_query__: the port the kernel describes, or its error. */
  function PortQuery(g: Genl, d: Dpif, portNo: u32, name: Option<string>): (r: Result<DpifPort>)
    ensures var t := Vport.Transact(g, QueryRequest(d, portNo, name), true);
            && (r.Err? <==> t.error != 0)
            && (r.Err? ==> r.error == t.error)
            && (r.Ok? ==> t.reply.name.Some? && r.value == PortOf(t.reply))
  {
    var t := Vport.Transact(g, QueryRequest(d, portNo, name), true);
    if t.error != 0 then Err(t.error) else Ok(PortOf(t.reply))
  }

  /** dpif_linux_port_query_by_number: a query by number alone. */
  function PortQueryByNumber(g: Genl, d: Dpif, portNo: u16): (r: Result<DpifPort>)
    ensures var m := Vport.ToMsg(QueryRequest(d, portNo, None), g.families.vport);
            && OVS_VPORT_ATTR_NAME !in m.attrs
            && Lookup(m.attrs, OVS_VPORT_ATTR_PORT_NO) == Some(U32(portNo))
    ensures var t := Vport.Transact(g, QueryRequest(d, portNo, None), true);
            && (r.Ok? <==> t.error == 0)
            && (r.Err? ==> r.error == t.error)
            && (r.Ok? ==> r.value == PortOf(t.reply))
  {
    PortQuery(g, d, portNo, None)
  }

  /** dpif_linux_port_query_by_name: a query by name, which also carries
      port number 0 (not the "unset" UINT32_MAX), so the kernel sees both a
      name and a number and must prefer the name. */
  function PortQueryByName(g: Genl, d: Dpif, name: string): (r: Result<DpifPort>)
    ensures var m := Vport.ToMsg(QueryRequest(d, 0, Some(name)), g.families.vport);
            && OVS_VPORT_ATTR_NAME in m.attrs
            && Lookup(m.attrs, OVS_VPORT_ATTR_PORT_NO) == Some(U32(0))
    ensures var t := Vport.Transact(g, QueryRequest(d, 0, Some(name)), true);
            && (r.Ok? <==> t.error == 0)
            && (r.Err? ==> r.error == t.error)
            && (r.Ok? ==> r.value == PortOf(t.reply))
  {
    PortQuery(g, d, 0, Some(name))
  }

  // ---------------------------------------------------------------------
  // Dumping ports and reconciling the free ring.

  /** struct dpif_linux_port_state: the replies still to be read, the ports
      below LRU_MAX_PORTS seen so far, and whether the end was reached. */
  datatype PortDumpState = PortDumpState(rest: seq<Msg>, seen: set<nat>, complete: bool)

  /** dpif_linux_port_dump_start: the request sent (a vport GET for this
      datapath, with no port number, so the kernel lists every port) and the
      fresh iterator over the replies. */
  function PortDumpStart(d: Dpif, family: u16, replies: seq<Msg>): (r: (Msg, PortDumpState))
    ensures r.0.family == family && r.0.dpIfindex == d.dpIfindex
    ensures r.0.attrs.Keys == {}
    ensures r.1 == PortDumpState(replies, {}, false)
  {
    (Vport.ToMsg(Vport.Init().(cmd := OVS_DP_CMD_GET, dpIfindex := d.dpIfindex), family),
     PortDumpState(replies, {}, false))
  }

  /** The port a single reply reports: its number, when it decodes and the
      number is below LRU_MAX_PORTS. */
  function ReportedPort(family: u16, m: Msg): Option<nat>
  {
    match Vport.FromMsg(m, family)
    case Ok(v) => if v.portNo < PortAlloc.LRU_MAX_PORTS then Some(v.portNo as nat) else None
    case Err(_) => None
  }

  /** The ports below LRU_MAX_PORTS that a run of replies reports. */
  function Reported(family: u16, msgs: seq<Msg>): set<nat>
  {
    set k | 0 <= k < |msgs| && ReportedPort(family, msgs[k]).Some? :: ReportedPort(family, msgs[k]).value
  }

  /** dpif_linux_port_dump_next: EOF at the end, which marks the dump
      complete; a reply that does not decode yields its error; otherwise the
      port it describes, whose number is recorded as seen when it is below
      LRU_MAX_PORTS. */
  function PortDumpNext(family: u16, st: PortDumpState): (r: (int, Option<DpifPort>, PortDumpState))
    ensures |st.rest| == 0 <==> r.0 == EOF
    ensures |st.rest| == 0 ==> r.1.None? && r.2 == st.(complete := true)
    ensures |st.rest| > 0 ==>
              && r.2.rest == st.rest[1..] && r.2.complete == st.complete
              && r.2.seen == st.seen + Reported(family, st.rest[..1])
              && (r.0 == 0 <==> Vport.FromMsg(st.rest[0], family).Ok?)
              && (r.1.Some? <==> r.0 == 0)
              && match Vport.FromMsg(st.rest[0], family)
                 case Err(e) => r.0 == e
                 case Ok(v) => r.1 == Some(PortOf(v))
  {
    if |st.rest| == 0 then (EOF, None, st.(complete := true))
    else
      var head := st.rest[0];
      var next := st.(rest := st.rest[1..]);
      match Vport.FromMsg(head, family)
      case Err(e) =>
        assert Reported(family, st.rest[..1]) == {};
        (e, None, next)
      case Ok(v) =>
        assert st.rest[..1][0] == head;
        var seen := if v.portNo < PortAlloc.LRU_MAX_PORTS then st.seen + {v.portNo as nat} else st.seen;
        assert Reported(family, st.rest[..1]) == if v.portNo < PortAlloc.LRU_MAX_PORTS then {v.portNo as nat} else {};
        (0, Some(PortOf(v)), next.(seen := seen))
  }

  /** The caller's loop over a port dump: dump_next until it stops
      returning 0. */
  function DumpAll(family: u16, st: PortDumpState): (r: PortDumpState)
    ensures (forall k :: 0 <= k < |st.rest| ==> Vport.FromMsg(st.rest[k], family).Ok?) ==>
              r.complete && r.seen == st.seen + Reported(family, st.rest)
    ensures (exists k :: 0 <= k < |st.rest| && Vport.FromMsg(st.rest[k], family).Err?) ==>
              r.complete == st.complete
    decreases |st.rest|
  {
    var (error, _, next) := PortDumpNext(family, st);
    if error != 0 then next
    else
      var r := DumpAll(family, next);
      DumpAllStep(family, st, next, r);
      r
  }

  lemma DumpAllStep(family: u16, st: PortDumpState, next: PortDumpState, r: PortDumpState)
    requires |st.rest| > 0 && Vport.FromMsg(st.rest[0], family).Ok?
    requires next == PortDumpNext(family, st).2
    requires (forall k :: 0 <= k < |next.rest| ==> Vport.FromMsg(next.rest[k], family).Ok?) ==>
               r.complete && r.seen == next.seen + Reported(family, next.rest)
    requires (exists k :: 0 <= k < |next.rest| && Vport.FromMsg(next.rest[k], family).Err?) ==>
               r.complete == next.complete
    ensures (forall k :: 0 <= k < |st.rest| ==> Vport.FromMsg(st.rest[k], family).Ok?) ==>
              r.complete && r.seen == st.seen + Reported(family, st.rest)
    ensures (exists k :: 0 <= k < |st.rest| && Vport.FromMsg(st.rest[k], family).Err?) ==>
              r.complete == st.complete
  {
    assert st.rest == st.rest[..1] + next.rest;
    ReportedSplit(family, st.rest[..1], next.rest);
    if exists k :: 0 <= k < |st.rest| && Vport.FromMsg(st.rest[k], family).Err? {
      var k :| 0 <= k < |st.rest| && Vport.FromMsg(st.rest[k], family).Err?;
      assert k > 0 && Vport.FromMsg(next.rest[k - 1], family).Err?;
    } else {
      forall k | 0 <= k < |next.rest|
        ensures Vport.FromMsg(next.rest[k], family).Ok?
      {
        assert next.rest[k] == st.rest[k + 1];
      }
    }
  }

  lemma ReportedSplit(family: u16, a: seq<Msg>, b: seq<Msg>)
    ensures Reported(family, a + b) == Reported(family, a) + Reported(family, b)
  {
    var ab := a + b;
    forall p | p in Reported(family, a)
      ensures p in Reported(family, ab)
    {
      var k :| 0 <= k < |a| && ReportedPort(family, a[k]) == Some(p);
      assert ab[k] == a[k];
    }
    forall p | p in Reported(family, ab)
      ensures p in Reported(family, a) + Reported(family, b)
    {
      var k :| 0 <= k < |ab| && ReportedPort(family, ab[k]) == Some(p);
      if k >= |a| {
        assert ab[k] == b[k - |a|];
      }
    }
    forall p | p in Reported(family, b)
      ensures p in Reported(family, ab)
    {
      var k :| 0 <= k < |b| && ReportedPort(family, b[k]) == Some(p);
      assert ab[k + |a|] == b[k];
    }
  }

  /** dpif_linux_port_dump_done: returns the dump's final status; after a
      complete dump every port below LRU_MAX_PORTS that was not seen (the
      local port aside) joins the free ring, in increasing order behind the
      ports already there; an incomplete dump leaves the ring alone. */
  method PortDumpDone(d: Dpif, st: PortDumpState, dumpError: nat) returns (error: nat, d': Dpif)
    requires Valid(d)
    ensures error == dumpError
    ensures Valid(d') && d' == d.(lru := d'.lru)
    ensures !st.complete ==> d' == d
    ensures st.complete ==>
              var q, q' := PortAlloc.Queue(d.lru), PortAlloc.Queue(d'.lru);
              && |q| <= |q'| && q'[..|q|] == q
              && (forall p: u16 :: p < PortAlloc.LRU_MAX_PORTS ==>
                    (p in q' <==> p != PortAlloc.LOCAL_PORT && (p in q || p !in st.seen)))
              && PortAlloc.Increasing(q'[|q|..])
  {
    d' := d;
    if st.complete {
      var lru := PortAlloc.Reconcile(d.lru, st.seen);
      d' := d.(lru := lru);
    }
    error := dumpError;
  }
}

=== FILE: flow.dfy ===
/** The flow translator: the flow descriptor, its request encoding and reply
    decoding, the flow transaction, the statistics defaults, the "put"
    request and the flow-dump iterator that skips vanished flows. */
module Flow {
  import opened Types
  import opened Protocol
  import opened Netlink

  /** struct ovs_flow_stats. */
  datatype FlowStats = FlowStats(nPackets: u64, nBytes: u64)

  /** struct dpif_linux_flow. An empty key means "no key"; 'actions' None is
      NULL actions; the statistics, TCP flags and last-used time
      are only ever filled in from a kernel reply. */
  datatype Flow = Flow(
    cmd: u8,
    nlmsgFlags: bv16,
    dpIfindex: i32,
    key: seq<byte>,
    actions: Option<seq<byte>>,
    stats: Option<FlowStats>,
    tcpFlags: Option<u8>,
    used: Option<u64>,
    clear: bool)

  /** dpif_linux_flow_init. */
  function Init(): Flow
  {
    Flow(0, 0, 0, [], None, None, None, None, false)
  }

  /** The kernel never sends OVS_FLOW_ATTR_CLEAR, so the policy leaves it out. */
  const POLICY: Policy := map[
    OVS_FLOW_ATTR_KEY := Rule(KBlob(0, None), false),
    OVS_FLOW_ATTR_ACTIONS := Rule(KBlob(0, None), true),
    OVS_FLOW_ATTR_STATS := Rule(KCounters(FLOW_STATS_COUNTERS), true),
    OVS_FLOW_ATTR_TCP_FLAGS := Rule(KU8, true),
    OVS_FLOW_ATTR_USED := Rule(KU64, true)]

  /** Fields that only the kernel fills in are absent. */
  predicate IsRequest(f: Flow)
  {
    f.stats.None? && f.tcpFlags.None? && f.used.None?
  }

  /** dpif_linux_flow_to_ofpbuf. Sending statistics, TCP flags or a used
      time is a programming error that the source asserts against. */
  function ToMsg(f: Flow, family: u16): (m: Msg)
    requires IsRequest(f)
    ensures m.family == family && m.cmd == f.cmd && m.dpIfindex == f.dpIfindex
    ensures m.flags == NLM_F_REQUEST | NLM_F_ECHO | f.nlmsgFlags
    ensures OVS_FLOW_ATTR_KEY in m.attrs <==> |f.key| != 0
    ensures OVS_FLOW_ATTR_ACTIONS in m.attrs <==> f.actions.Some?
    ensures OVS_FLOW_ATTR_CLEAR in m.attrs <==> f.clear
    ensures OVS_FLOW_ATTR_STATS !in m.attrs && OVS_FLOW_ATTR_TCP_FLAGS !in m.attrs
            && OVS_FLOW_ATTR_USED !in m.attrs
  {
    var attrs := map[];
    var attrs := PutIf(attrs, |f.key| != 0, OVS_FLOW_ATTR_KEY, Blob(f.key));
    var attrs := PutIf(attrs, f.actions.Some?, OVS_FLOW_ATTR_ACTIONS, Blob(f.actions.GetOr([])));
    var attrs := PutIf(attrs, f.clear, OVS_FLOW_ATTR_CLEAR, Flag);
    Msg(family, NLM_F_REQUEST | NLM_F_ECHO | f.nlmsgFlags, f.cmd, f.dpIfindex, attrs)
  }

  /** dpif_linux_flow_from_ofpbuf: EINVAL for another family's message or a
      message without a key. The command is not decoded (it stays 0), the
      message flags are kept, and "clear" is never set. */
  function FromMsg(m: Msg, family: u16): (r: Result<Flow>)
    ensures r.Err? ==> r.error == EINVAL
    ensures m.family != family || OVS_FLOW_ATTR_KEY !in m.attrs ==> r.Err?
    ensures r.Ok? ==> r.value.cmd == 0 && !r.value.clear
    ensures r.Ok? ==> r.value.nlmsgFlags == m.flags && r.value.dpIfindex == m.dpIfindex
    ensures r.Ok? ==> Lookup(m.attrs, OVS_FLOW_ATTR_KEY) == Some(Blob(r.value.key))
    ensures r.Ok? ==> (r.value.actions.Some? <==> OVS_FLOW_ATTR_ACTIONS in m.attrs)
    ensures r.Ok? <==> m.family == family && PolicyParse(POLICY, m.attrs).Some?
    ensures r.Ok? ==>
              var f := r.value;
              && Lookup(m.attrs, OVS_FLOW_ATTR_ACTIONS) ==
                   (if f.actions.Some? then Some(Blob(f.actions.value)) else None)
              && Lookup(m.attrs, OVS_FLOW_ATTR_STATS) ==
                   (if f.stats.Some? then Some(Counters([f.stats.value.nPackets, f.stats.value.nBytes])) else None)
              && Lookup(m.attrs, OVS_FLOW_ATTR_TCP_FLAGS) ==
                   (if f.tcpFlags.Some? then Some(U8(f.tcpFlags.value)) else None)
              && Lookup(m.attrs, OVS_FLOW_ATTR_USED) ==
                   (if f.used.Some? then Some(U64(f.used.value)) else None)
  {
    if m.family != family then Err(EINVAL)
    else
      match PolicyParse(POLICY, m.attrs)
      case None => Err(EINVAL)
      case Some(a) =>
        assert Fits(a[OVS_FLOW_ATTR_KEY], KBlob(0, None));
        assert OVS_FLOW_ATTR_STATS in a ==>
                 var c := a[OVS_FLOW_ATTR_STATS].counters; c == [c[0], c[1]];
        Ok(Flow(
          0,
          m.flags,
          m.dpIfindex,
          a[OVS_FLOW_ATTR_KEY].bytes,
          if OVS_FLOW_ATTR_ACTIONS in a then Some(a[OVS_FLOW_ATTR_ACTIONS].bytes) else None,
          if OVS_FLOW_ATTR_STATS in a then
            var c := a[OVS_FLOW_ATTR_STATS].counters; Some(FlowStats(c[0], c[1]))
          else None,
          if OVS_FLOW_ATTR_TCP_FLAGS in a then Some(a[OVS_FLOW_ATTR_TCP_FLAGS].u8) else None,
          if OVS_FLOW_ATTR_USED in a then Some(a[OVS_FLOW_ATTR_USED].u64) else None,
          false))
  }

  /** The attributes of a request with a key pass the reply policy, and
      parse to the key and actions alone: "clear" is dropped. */
  lemma RequestParses(f: Flow, family: u16)
    requires IsRequest(f) && |f.key| != 0
    ensures PolicyParse(POLICY, ToMsg(f, family).attrs)
            == Some(PutIf(map[OVS_FLOW_ATTR_KEY := Blob(f.key)], f.actions.Some?,
                          OVS_FLOW_ATTR_ACTIONS, Blob(f.actions.GetOr([]))))
  {
    var m := ToMsg(f, family);
    var base := PutIf(map[OVS_FLOW_ATTR_KEY := Blob(f.key)], f.actions.Some?,
                      OVS_FLOW_ATTR_ACTIONS, Blob(f.actions.GetOr([])));
    var clear := map[OVS_FLOW_ATTR_CLEAR := Flag];
    assert m.attrs == if f.clear then base + clear else base;
    UnknownSlotsIgnored(POLICY, base, clear);
    ParsesWhole(POLICY, base);
  }

  /** A request with a key decodes back to itself, except for the fields the
      decoder does not carry over: the command, the request and echo flags
      added on encode, and "clear". */
  lemma RoundTrip(f: Flow, family: u16)
    requires IsRequest(f) && |f.key| != 0
    ensures FromMsg(ToMsg(f, family), family)
            == Ok(f.(cmd := 0, nlmsgFlags := NLM_F_REQUEST | NLM_F_ECHO | f.nlmsgFlags,
                     clear := false))
  {
    RequestParses(f, family);
  }

  /** dpif_linux_flow_transact: as for the other families, the reply is
      decoded only when wanted and reset on any failure. */
  function Transact(g: Genl, request: Flow, wantReply: bool): (r: Reply<Flow>)
    requires IsRequest(request)
    ensures r.error != 0 || !wantReply ==> r.reply == Init()
    ensures r.error == 0 <==>
              && g.kernel(ToMsg(request, g.families.flow)).Ok?
              && (wantReply ==> FromMsg(g.kernel(ToMsg(request, g.families.flow)).value,
                                        g.families.flow).Ok?)
    ensures r.error == 0 && wantReply ==>
              Ok(r.reply) == FromMsg(g.kernel(ToMsg(request, g.families.flow)).value,
                                     g.families.flow)
    ensures match g.kernel(ToMsg(request, g.families.flow))
            case Err(e) => r.error == e
            case Ok(m) =>
              r.error == if wantReply && FromMsg(m, g.families.flow).Err?
                         then FromMsg(m, g.families.flow).error else 0
  {
    match g.kernel(ToMsg(request, g.families.flow))
    case Err(e) => Reply(e, Init())
    case Ok(m) =>
      if !wantReply then Reply(0, Init())
      else
        match FromMsg(m, g.families.flow)
        case Err(e) => Reply(e, Init())
        case Ok(f) => Reply(0, f)
  }

  /** struct dpif_flow_stats as handed to the caller. */
  datatype DpifFlowStats = DpifFlowStats(nPackets: u64, nBytes: u64, used: u64, tcpFlags: u8)

  /** dpif_linux_flow_get_stats: absent fields read as 0. */
  function GetStats(f: Flow): (s: DpifFlowStats)
    ensures f.stats.None? ==> s.nPackets == 0 && s.nBytes == 0
    ensures f.stats.Some? ==> s.nPackets == f.stats.value.nPackets && s.nBytes == f.stats.value.nBytes
  {
    DpifFlowStats(
      if f.stats.Some? then f.stats.value.nPackets else 0,
      if f.stats.Some? then f.stats.value.nBytes else 0,
      f.used.GetOr(0),
      f.tcpFlags.GetOr(0))
  }

  /** The statistics of a decoded reply are the counters of its statistics
      attribute, its used time and its TCP flags, each 0 when absent. */
  lemma StatsOfReply(m: Msg, family: u16)
    requires FromMsg(m, family).Ok?
    ensures var s := GetStats(FromMsg(m, family).value);
            && (OVS_FLOW_ATTR_STATS in m.attrs ==>
                  [s.nPackets, s.nBytes] == m.attrs[OVS_FLOW_ATTR_STATS].counters)
            && (OVS_FLOW_ATTR_STATS !in m.attrs ==> s.nPackets == 0 && s.nBytes == 0)
            && (s.used == if OVS_FLOW_ATTR_USED in m.attrs then m.attrs[OVS_FLOW_ATTR_USED].u64 else 0)
            && (s.tcpFlags == if OVS_FLOW_ATTR_TCP_FLAGS in m.attrs
                              then m.attrs[OVS_FLOW_ATTR_TCP_FLAGS].u8 else 0)
  {
    var a := PolicyParse(POLICY, m.attrs).value;
    if OVS_FLOW_ATTR_STATS in m.attrs {
      assert Fits(a[OVS_FLOW_ATTR_STATS], KCounters(FLOW_STATS_COUNTERS));
    }
  }

  /** The caller's flags for a flow put (enum dpif_flow_put_flags). */
  datatype PutFlags = PutFlags(mayCreate: bool, mayModify: bool, zeroStats: bool)

  /** The request dpif_linux_flow_put builds: NEW when creation is allowed,
      SET otherwise; NLM_F_CREATE unless modification is allowed; the
      actions are always present, as an empty list when the caller has none. */
  function PutRequest(dpIfindex: i32, flags: PutFlags, key: seq<byte>,
                      actions: Option<seq<byte>>): (f: Flow)
    ensures IsRequest(f)
    ensures f.actions == Some(actions.GetOr([]))
    ensures f.cmd == (if flags.mayCreate then OVS_FLOW_CMD_NEW else OVS_FLOW_CMD_SET)
    ensures f.nlmsgFlags == (if flags.mayModify then 0 else NLM_F_CREATE)
    ensures f.key == key && f.clear == flags.zeroStats && f.dpIfindex == dpIfindex
  {
    Flow(if flags.mayCreate then OVS_FLOW_CMD_NEW else OVS_FLOW_CMD_SET,
         if flags.mayModify then 0 else NLM_F_CREATE,
         dpIfindex, key, Some(actions.GetOr([])), None, None, None, flags.zeroStats)
  }

  /** A put message always carries an actions attribute: the caller's
      actions, of their length, or a zero-length list when there are none.
      Without it the kernel would leave the existing actions unchanged. */
  lemma PutAlwaysSendsActions(dpIfindex: i32, flags: PutFlags, key: seq<byte>,
                              actions: Option<seq<byte>>, family: u16)
    ensures var m := ToMsg(PutRequest(dpIfindex, flags, key, actions), family);
            && OVS_FLOW_ATTR_ACTIONS in m.attrs
            && m.attrs[OVS_FLOW_ATTR_ACTIONS] == Blob(actions.GetOr([]))
            && (actions.None? ==> |m.attrs[OVS_FLOW_ATTR_ACTIONS].bytes| == 0)
  {
  }

  /** dpif_linux_flow_put: statistics are requested from the kernel only
      when the caller wants them, and returned only on success. */
  function Put(g: Genl, dpIfindex: i32, flags: PutFlags, key: seq<byte>,
               actions: Option<seq<byte>>, wantStats: bool): (r: (nat, Option<DpifFlowStats>))
    ensures r.1.Some? ==> r.0 == 0 && wantStats
    ensures r.0 == 0 && wantStats ==> r.1.Some?
    ensures r.0 == 0 ==> g.kernel(ToMsg(PutRequest(dpIfindex, flags, key, actions), g.families.flow)).Ok?
    ensures var t := Transact(g, PutRequest(dpIfindex, flags, key, actions), wantStats);
            && r.0 == t.error
            && (r.1.Some? ==> r.1.value == GetStats(t.reply))
  {
    var t := Transact(g, PutRequest(dpIfindex, flags, key, actions), wantStats);
    if t.error == 0 && wantStats then (0, Some(GetStats(t.reply))) else (t.error, None)
  }

  /** dpif_linux_flow_get__: a GET request for one key. */
  function GetRequest(dpIfindex: i32, key: seq<byte>): (f: Flow)
    ensures IsRequest(f) && f.cmd == OVS_FLOW_CMD_GET && f.key == key && f.actions.None?
  {
    Init().(cmd := OVS_FLOW_CMD_GET, dpIfindex := dpIfindex, key := key)
  }

  /** One step of the flow dump: the status (0, EOF or an errno), the flow
      produced, and the dump messages not yet consumed. */
  datatype DumpStep = DumpStep(error: int, flow: Flow, rest: seq<Msg>)

  /** What the dump loop does with one dumped message: produce a flow, pass
      over it, or stop with an errno. A message that does not decode stops
      the dump. A flow without actions, when the caller wants actions, is
      fetched again individually: the fetched flow is produced, and a
      failed fetch (typically because the flow disappeared since the dump
      listed it) passes over the message. */
  datatype DumpVerdict = Emit(flow: Flow) | Pass | Stop(error: Errno)

  function Judge(g: Genl, dpIfindex: i32, m: Msg, wantActions: bool): DumpVerdict
  {
    match FromMsg(m, g.families.flow)
    case Err(e) => Stop(e)
    case Ok(f) =>
      if wantActions && f.actions.None? then
        var t := Transact(g, GetRequest(dpIfindex, f.key), true);
        if t.error != 0 then Pass else Emit(t.reply)
      else Emit(f)
  }

  /** A message that does not decode stops the dump with the decoder's
      error; only a flow lacking wanted actions is ever passed over; a flow
      that needs no fetch is produced as decoded. */
  lemma JudgeMeaning(g: Genl, dpIfindex: i32, m: Msg, wantActions: bool)
    ensures var v := Judge(g, dpIfindex, m, wantActions);
            var d := FromMsg(m, g.families.flow);
            && (v.Stop? <==> d.Err?)
            && (v.Stop? ==> v.error == d.error)
            && (v.Pass? ==> wantActions && d.value.actions.None?)
            && (d.Ok? && !(wantActions && d.value.actions.None?) ==> v == Emit(d.value))
  {
  }

  /** The loop of dpif_linux_flow_dump_next from the i-th message on, over
      the verdicts on the messages: the status and how many messages were
      consumed. */
  function DumpFrom(vs: seq<DumpVerdict>, i: nat): (r: (int, nat))
    requires i <= |vs|
    ensures i <= r.1 <= |vs|
    ensures forall k :: i <= k < r.1 - 1 ==> vs[k].Pass?
    ensures r.0 == EOF <==> r.1 == |vs| && (r.1 == i || vs[r.1 - 1].Pass?)
    ensures r.0 != EOF ==> i < r.1 && !vs[r.1 - 1].Pass?
    ensures r.0 != EOF ==> r.0 == if vs[r.1 - 1].Stop? then vs[r.1 - 1].error else 0
    decreases |vs| - i
  {
    if i == |vs| then (EOF, i)
    else
      match vs[i]
      case Pass => DumpFrom(vs, i + 1)
      case Stop(e) => (e, i + 1)
      case Emit(_) => (0, i + 1)
  }

  function Verdicts(g: Genl, dpIfindex: i32, dump: seq<Msg>, wantActions: bool): (vs: seq<DumpVerdict>)
    ensures |vs| == |dump|
    ensures forall k :: 0 <= k < |dump| ==> vs[k] == Judge(g, dpIfindex, dump[k], wantActions)
  {
    seq(|dump|, k requires 0 <= k < |dump| => Judge(g, dpIfindex, dump[k], wantActions))
  }

  /** The step DumpFrom takes over verdicts vs on the messages of dump. */
  function StepOver(dump: seq<Msg>, vs: seq<DumpVerdict>): (r: DumpStep)
    requires |vs| == |dump|
    ensures |r.rest| <= |dump| && r.rest == dump[|dump| - |r.rest|..]
    ensures r.error == EOF <==> |r.rest| == 0 && forall k :: 0 <= k < |vs| ==> vs[k].Pass?
    ensures r.error != EOF ==>
              var last := |dump| - |r.rest| - 1;
              && 0 <= last
              && (forall k :: 0 <= k < last ==> vs[k].Pass?)
              && (r.error == 0 <==> vs[last] == Emit(r.flow))
              && (r.error != 0 ==> vs[last].Stop? && vs[last].error == r.error)
  {
    var r := DumpFrom(vs, 0);
    var n := r.1;
    assert |dump[n..]| == |dump| - n;
    var flow := if r.0 == 0 then vs[n - 1].flow else Init();
    DumpStep(r.0, flow, dump[n..])
  }

  /** dpif_linux_flow_dump_next over the remaining dump messages: messages
      are consumed until one is not passed over; EOF when none is left. */
  function DumpNext(g: Genl, dpIfindex: i32, dump: seq<Msg>, wantActions: bool): (r: DumpStep)
    ensures |r.rest| <= |dump| && r.rest == dump[|dump| - |r.rest|..]
    ensures r.error == EOF <==>
              |r.rest| == 0 && forall k :: 0 <= k < |dump| ==> Judge(g, dpIfindex, dump[k], wantActions).Pass?
    ensures r.error != EOF ==>
              var last := |dump| - |r.rest| - 1;
              && 0 <= last
              && (forall k :: 0 <= k < last ==> Judge(g, dpIfindex, dump[k], wantActions).Pass?)
              && (r.error == 0 <==> Judge(g, dpIfindex, dump[last], wantActions) == Emit(r.flow))
              && (r.error != 0 ==> Judge(g, dpIfindex, dump[last], wantActions).Stop?
                                   && Judge(g, dpIfindex, dump[last], wantActions).error == r.error)
  {
    StepOver(dump, Verdicts(g, dpIfindex, dump, wantActions))
  }
}

=== FILE: netlink.dfy ===
/** Generic Netlink messages at the level the datapath interface sees them:
    a header (family, flags, command), the datapath index sub-header, and a
    map from attribute slot to an already-typed attribute value. The byte
    layout of attributes is below this model; attribute-policy validation is
    modelled by kind and declared length bounds. */
module Netlink {
  import opened Types
  import opened Protocol

  /** One attribute payload, by the kind it was written with. */
  datatype AttrValue =
    | U8(u8: u8)
    | U32(u32: u32)
    | U64(u64: u64)
    | Str(str: string)
    /** Opaque bytes (NL_A_UNSPEC, or a nested list this layer never opens). */
    | Blob(bytes: seq<byte>)
    /** A fixed block of 64-bit counters (a kernel statistics struct). */
    | Counters(counters: seq<u64>)
    /** A nested attribute list that this layer parses. */
    | Nest(inner: map<nat, AttrValue>)
    | Flag

  /** What a policy expects in one slot. */
  datatype Kind =
    | KU8
    | KU32
    | KU64
    /** A string whose payload, terminator included, is at most maxStrLen bytes. */
    | KString(maxStrLen: nat)
    | KBlob(minLen: nat, maxLen: Option<nat>)
    | KCounters(count: nat)
    | KNest
    | KFlag

  datatype Rule = Rule(kind: Kind, optional: bool)

  /** A policy table: the slots it declares; any other slot is ignored. */
  type Policy = map<nat, Rule>

  datatype Msg = Msg(family: u16, flags: bv16, cmd: u8, dpIfindex: i32,
                     attrs: map<nat, AttrValue>)

  /** The family numbers resolved once at start-up. */
  datatype Families = Families(datapath: u16, vport: u16, flow: u16, packet: u16)

  /** The shared Generic Netlink channel: the cached start-up status (0 once
      every family resolved, else the errno of the failed lookup), the
      resolved families, and the kernel as a function from request to reply. */
  datatype Genl = Genl(initError: nat, families: Families, kernel: Msg -> Result<Msg>)

  /** The outcome of a transaction: 0 or a positive errno, and the decoded
      reply, which is reset to its empty value whenever the status is not 0. */
  datatype Reply<T> = Reply(error: nat, reply: T)

  /** The attribute in a slot, if any. */
  function Lookup(attrs: map<nat, AttrValue>, slot: nat): Option<AttrValue>
  {
    if slot in attrs then Some(attrs[slot]) else None
  }

  /** 'v' is the u32 attribute in 'slot', or 0 when the slot is absent (the
      decoders' "read if present, else keep the zeroed default"). */
  predicate ReadsU32(attrs: map<nat, AttrValue>, slot: nat, v: u32)
  {
    if slot in attrs then attrs[slot] == U32(v) else v == 0
  }

  /** Adds one attribute when 'present' holds (the encoders' "put if set"). */
  function PutIf(attrs: map<nat, AttrValue>, present: bool, slot: nat, v: AttrValue): map<nat, AttrValue>
  {
    if present then attrs[slot := v] else attrs
  }

  predicate Fits(v: AttrValue, k: Kind)
  {
    match k
    case KU8 => v.U8?
    case KU32 => v.U32?
    case KU64 => v.U64?
    case KString(maxStrLen) => v.Str? && |v.str| + 1 <= maxStrLen
    case KBlob(minLen, maxLen) =>
      v.Blob? && minLen <= |v.bytes| && (maxLen.Some? ==> |v.bytes| <= maxLen.value)
    case KCounters(n) => v.Counters? && |v.counters| == n
    case KNest => v.Nest?
    case KFlag => v.Flag?
  }

  /** Every declared slot that is present has the declared kind, and every
      required slot is present. */
  predicate Admits(p: Policy, attrs: map<nat, AttrValue>)
  {
    forall slot :: slot in p ==>
      && (slot in attrs ==> Fits(attrs[slot], p[slot].kind))
      && (!p[slot].optional ==> slot in attrs)
  }

  /** nl_policy_parse: the declared slots of an admissible attribute map. */
  function PolicyParse(p: Policy, attrs: map<nat, AttrValue>): (r: Option<map<nat, AttrValue>>)
    ensures r.Some? ==> r.value.Keys == attrs.Keys * p.Keys
    ensures r.Some? ==> forall slot :: slot in r.value ==> r.value[slot] == attrs[slot]
    ensures r.Some? ==> forall slot :: slot in p && !p[slot].optional ==> slot in r.value
    ensures r.Some? ==> forall slot :: slot in r.value ==> Fits(r.value[slot], p[slot].kind)
  {
    if Admits(p, attrs) then Some(Declared(p, attrs)) else None
  }

  /** The attributes of the slots a policy declares. */
  function Declared(p: Policy, attrs: map<nat, AttrValue>): (r: map<nat, AttrValue>)
    ensures r.Keys == attrs.Keys * p.Keys
    ensures forall slot :: slot in r ==> r[slot] == attrs[slot]
  {
    map slot | slot in attrs.Keys * p.Keys :: attrs[slot]
  }

  /** A map holding only declared slots, each of its declared kind, with
      every required slot present, parses to itself. */
  lemma ParsesWhole(p: Policy, attrs: map<nat, AttrValue>)
    requires attrs.Keys <= p.Keys
    requires forall slot :: slot in attrs ==> Fits(attrs[slot], p[slot].kind)
    requires forall slot :: slot in p && !p[slot].optional ==> slot in attrs
    ensures PolicyParse(p, attrs) == Some(attrs)
  {
    assert Admits(p, attrs);
    assert Declared(p, attrs) == attrs;
  }

  /** A required slot that is absent makes the parse fail. */
  lemma MissingRequiredRejected(p: Policy, attrs: map<nat, AttrValue>, slot: nat)
    requires slot in p && !p[slot].optional && slot !in attrs
    ensures PolicyParse(p, attrs).None?
  {
    assert !Admits(p, attrs) by {
      assert !(slot in attrs);
    }
  }

  /** A present slot of the wrong kind makes the parse fail. */
  lemma WrongKindRejected(p: Policy, attrs: map<nat, AttrValue>, slot: nat)
    requires slot in p && slot in attrs && !Fits(attrs[slot], p[slot].kind)
    ensures PolicyParse(p, attrs).None?
  {
  }

  /** Attributes in slots the policy does not declare never change the
      outcome of a parse: they neither cause a failure nor show up. */
  lemma UnknownSlotsIgnored(p: Policy, attrs: map<nat, AttrValue>, extra: map<nat, AttrValue>)
    requires extra.Keys !! p.Keys
    ensures PolicyParse(p, attrs + extra) == PolicyParse(p, attrs)
  {
    var both := attrs + extra;
    assert AgreeOn(p, both, attrs) by {
      forall slot | slot in p
        ensures (slot in both) == (slot in attrs)
        ensures slot in both ==> both[slot] == attrs[slot]
      {
        assert slot !in extra;
      }
    }
    AgreeingMapsParseAlike(p, both, attrs);
  }

  /** Two attribute maps that agree on the declared slots. */
  predicate AgreeOn(p: Policy, a: map<nat, AttrValue>, b: map<nat, AttrValue>)
  {
    forall slot :: slot in p ==> (slot in a <==> slot in b) && (slot in a ==> a[slot] == b[slot])
  }

  lemma AgreeingMapsParseAlike(p: Policy, a: map<nat, AttrValue>, b: map<nat, AttrValue>)
    requires AgreeOn(p, a, b)
    ensures PolicyParse(p, a) == PolicyParse(p, b)
  {
    AdmitsAlike(p, a, b);
    AdmitsAlike(p, b, a);
    if Admits(p, a) {
      var ra, rb := Declared(p, a), Declared(p, b);
      assert ra.Keys == rb.Keys;
      assert ra == rb;
    }
  }

  lemma AdmitsAlike(p: Policy, a: map<nat, AttrValue>, b: map<nat, AttrValue>)
    requires AgreeOn(p, a, b)
    ensures Admits(p, a) ==> Admits(p, b)
  {
    if Admits(p, a) {
      forall slot | slot in p
        ensures slot in b ==> Fits(b[slot], p[slot].kind)
        ensures !p[slot].optional ==> slot in b
      {
      }
    }
  }
}

=== FILE: port_alloc.dfy ===
/** The free-port allocator of one open datapath: a ring of LRU_MAX_PORTS
    16-bit slots with free-running head and tail counters, plus a bitmap
    that keeps any port from being queued twice. Port 0 (the local port) is
    marked from the start and is never queued. */
module PortAlloc {
  import opened Types

  const LRU_MAX_PORTS: nat := 1024
  /** The local port, OVSP_LOCAL. */
  const LOCAL_PORT: nat := 0

  /** 'ports[i & LRU_MASK]' holds the i-th port ever pushed; the queued
      ports are those pushed at positions tail .. head-1. */
  datatype Lru = Lru(bitmap: seq<bool>, ports: seq<u16>, head: nat, tail: nat)

  predicate WellFormed(s: Lru)
  {
    |s.bitmap| == LRU_MAX_PORTS && |s.ports| == LRU_MAX_PORTS && s.tail <= s.head
  }

  /** The ring slot of a counter value: 'i & LRU_MASK', which is
      'i % LRU_MAX_PORTS' because LRU_MAX_PORTS is a power of two. */
  function Slot(i: nat): (r: nat)
    ensures r < LRU_MAX_PORTS
  {
    i % LRU_MAX_PORTS
  }

  /** The queued ports, oldest first. */
  function Queue(s: Lru): (q: seq<u16>)
    requires WellFormed(s)
    ensures |q| == s.head - s.tail
  {
    seq(s.head - s.tail, k requires 0 <= k < s.head - s.tail => s.ports[Slot(s.tail + k)])
  }

  predicate Distinct(q: seq<u16>)
  {
    forall i, j :: 0 <= i < j < |q| ==> q[i] != q[j]
  }

  predicate Increasing(q: seq<u16>)
  {
    forall i, j :: 0 <= i < j < |q| ==> q[i] < q[j]
  }

  /** The allocator invariant: the queue holds distinct ports in
      [1, LRU_MAX_PORTS), the bit of such a port is set exactly when it is
      queued, and the local port's bit stays set. */
  predicate Inv(s: Lru)
  {
    && WellFormed(s)
    && s.head - s.tail <= LRU_MAX_PORTS
    && s.bitmap[LOCAL_PORT]
    && Distinct(Queue(s))
    && (forall k :: 0 <= k < |Queue(s)| ==> LOCAL_PORT < Queue(s)[k] < LRU_MAX_PORTS)
    && (forall p :: LOCAL_PORT < p < LRU_MAX_PORTS ==> (s.bitmap[p] <==> p in Queue(s)))
  }

  // ---------------------------------------------------------------------
  // Counting: a queue of distinct ports in [1, LRU_MAX_PORTS) is short.

  /** The ports a queue holds. */
  function Elems(q: seq<u16>): (r: set<u16>)
    ensures forall x :: x in r <==> x in q
  {
    set x | x in q
  }

  lemma {:induction false} DistinctElems(q: seq<u16>)
    requires Distinct(q)
    ensures |Elems(q)| == |q|
  {
    if |q| > 0 {
      var init, last := q[..|q| - 1], q[|q| - 1];
      assert q == init + [last];
      assert Distinct(init);
      DistinctElems(init);
      assert last !in init;
      assert Elems(q) == Elems(init) + {last};
    }
  }

  /** The ports lo .. hi-1. */
  function Range(lo: nat, hi: nat): (r: set<u16>)
    requires hi <= 0x1_0000
    ensures forall p: u16 :: p in r <==> lo <= p < hi
    decreases hi - lo
  {
    if lo >= hi then {} else {lo as u16} + Range(lo + 1, hi)
  }

  lemma {:induction false} RangeSize(lo: nat, hi: nat)
    requires lo <= hi <= 0x1_0000
    ensures |Range(lo, hi)| == hi - lo
    decreases hi - lo
  {
    if lo < hi {
      RangeSize(lo + 1, hi);
      var rest := Range(lo + 1, hi);
      assert lo !in rest;
      assert Range(lo, hi) == {lo as u16} + rest;
    }
  }

  lemma {:induction false} SubsetSize<T>(a: set<T>, b: set<T>)
    requires a <= b
    ensures |a| <= |b|
    decreases |b|
  {
    if a != {} {
      var x :| x in a;
      SubsetSize(a - {x}, b - {x});
    }
  }

  /** At most LRU_MAX_PORTS - 1 ports are ever queued, so a push never
      overwrites a queued slot. */
  lemma QueueBound(s: Lru)
    requires Inv(s)
    ensures |Queue(s)| < LRU_MAX_PORTS
  {
    var q := Queue(s);
    DistinctElems(q);
    RangeSize(1, LRU_MAX_PORTS);
    var r := Range(1, LRU_MAX_PORTS);
    forall x | x in Elems(q)
      ensures x in r
    {
      var k :| 0 <= k < |q| && q[k] == x;
    }
    SubsetSize(Elems(q), r);
  }

  lemma SlotsDiffer(a: nat, b: nat)
    requires a < b < a + LRU_MAX_PORTS
    ensures Slot(a) != Slot(b)
  {
    var qa, qb := a / LRU_MAX_PORTS, b / LRU_MAX_PORTS;
    assert a == qa * LRU_MAX_PORTS + Slot(a);
    assert b == qb * LRU_MAX_PORTS + Slot(b);
  }

  // ---------------------------------------------------------------------
  // The two queue operations.

  /** The state right after open_dpif allocates the bitmap and marks the
      local port, before any port is pushed. */
  function Empty(): (s: Lru)
    ensures Inv(s) && Queue(s) == []
  {
    Lru(seq(LRU_MAX_PORTS, p => p == LOCAL_PORT), seq(LRU_MAX_PORTS, _ => 0), 0, 0)
  }

  /** dpif_linux_push_port: a port below LRU_MAX_PORTS whose bit is clear is
      marked and appended; any other port leaves the state unchanged. */
  function Push(s: Lru, port: u16): (s': Lru)
    requires Inv(s)
    ensures Inv(s')
    ensures Queue(s') == if LOCAL_PORT < port < LRU_MAX_PORTS && port !in Queue(s)
                         then Queue(s) + [port] else Queue(s)
  {
    if port < LRU_MAX_PORTS && !s.bitmap[port] then
      var s' := Lru(s.bitmap[port := true], s.ports[Slot(s.head) := port], s.head + 1, s.tail);
      PushAppends(s, port, s');
      s'
    else
      s
  }

  lemma PushAppends(s: Lru, port: u16, s': Lru)
    requires Inv(s) && port < LRU_MAX_PORTS && !s.bitmap[port]
    requires s' == Lru(s.bitmap[port := true], s.ports[Slot(s.head) := port], s.head + 1, s.tail)
    ensures Inv(s')
    ensures LOCAL_PORT < port && port !in Queue(s)
    ensures Queue(s') == Queue(s) + [port]
  {
    var q := Queue(s);
    QueueBound(s);
    forall k | 0 <= k < |q|
      ensures Queue(s')[k] == q[k]
    {
      SlotsDiffer(s.tail + k, s.head);
    }
    assert Queue(s') == q + [port];
  }

  /** dpif_linux_pop_port: UINT32_MAX on an empty ring, otherwise the oldest
      queued port, which is unmarked and dequeued. */
  function Pop(s: Lru): (r: (u32, Lru))
    requires Inv(s)
    ensures Inv(r.1)
    ensures |Queue(s)| == 0 ==> r.0 == UINT32_MAX && r.1 == s
    ensures |Queue(s)| > 0 ==> r.0 == Queue(s)[0] as u32 && Queue(r.1) == Queue(s)[1..]
  {
    if s.head == s.tail then (UINT32_MAX, s)
    else
      var port := s.ports[Slot(s.tail)];
      assert port == Queue(s)[0];
      var s' := Lru(s.bitmap[port := false], s.ports, s.head, s.tail + 1);
      assert Queue(s') == Queue(s)[1..];
      (port as u32, s')
  }

  /** n pops in a row; popping an empty ring changes nothing. */
  function PopN(s: Lru, n: nat): (s': Lru)
    requires Inv(s)
    ensures Inv(s')
    ensures n <= |Queue(s)| ==> Queue(s') == Queue(s)[n..]
    ensures |Queue(s)| < n ==> Queue(s') == []
    decreases n
  {
    if n == 0 then s
    else
      var s1 := Pop(s).1;
      var s' := PopN(s1, n - 1);
      assert n <= |Queue(s)| ==> Queue(s)[1..][n - 1..] == Queue(s)[n..];
      s'
  }

  // ---------------------------------------------------------------------
  // The allocator against a plain FIFO of distinct ports.

  datatype Op = PushOp(port: u16) | PopOp

  /** The reference queue: pushing appends a port in [1, LRU_MAX_PORTS) that
      is not queued yet; popping drops the oldest port. */
  function FifoStep(q: seq<u16>, op: Op): seq<u16>
  {
    match op
    case PushOp(p) => if LOCAL_PORT < p < LRU_MAX_PORTS && p !in q then q + [p] else q
    case PopOp => if |q| == 0 then q else q[1..]
  }

  function FifoRun(q: seq<u16>, ops: seq<Op>): seq<u16>
    decreases |ops|
  {
    if |ops| == 0 then q else FifoRun(FifoStep(q, ops[0]), ops[1..])
  }

  function Step(s: Lru, op: Op): (s': Lru)
    requires Inv(s)
    ensures Inv(s')
    ensures Queue(s') == FifoStep(Queue(s), op)
  {
    match op
    case PushOp(p) => Push(s, p)
    case PopOp => Pop(s).1
  }

  /** Any sequence of pushes and pops keeps the invariant (bit p set iff p
      queued, local port marked and never queued, no duplicates, at most
      LRU_MAX_PORTS queued) and behaves as the reference FIFO. */
  function Run(s: Lru, ops: seq<Op>): (s': Lru)
    requires Inv(s)
    ensures Inv(s')
    ensures Queue(s') == FifoRun(Queue(s), ops)
    decreases |ops|
  {
    if |ops| == 0 then s else Run(Step(s, ops[0]), ops[1..])
  }

  /** A port handed out by one pop is not handed out by the next pop unless
      it was pushed in between. */
  lemma NoDoubleHandout(s: Lru)
    requires Inv(s)
    ensures var (p1, s1) := Pop(s);
            var (p2, _) := Pop(s1);
            p1 != UINT32_MAX ==> p1 != p2
  {
    var (p1, s1) := Pop(s);
    if p1 != UINT32_MAX && |Queue(s)| > 1 {
      assert Queue(s)[0] != Queue(s)[1];
    }
  }

  // ---------------------------------------------------------------------
  // Seeding and reconciling.

  /** open_dpif: the local port is marked and ports 1 .. LRU_MAX_PORTS-1
      are pushed in increasing order. */
  method Open() returns (s: Lru)
    ensures Inv(s)
    ensures |Queue(s)| == LRU_MAX_PORTS - 1
    ensures forall k :: 0 <= k < |Queue(s)| ==> Queue(s)[k] == k + 1
  {
    s := Empty();
    var i: u16 := 1;
    while i < LRU_MAX_PORTS as u16
      invariant 1 <= i as nat <= LRU_MAX_PORTS
      invariant Inv(s)
      invariant |Queue(s)| == i as nat - 1
      invariant Counted(Queue(s))
    {
      PushNext(s, i);
      s := Push(s, i);
      i := i + 1;
    }
  }

  /** The queue holds 1, 2, .., in order. */
  predicate Counted(q: seq<u16>)
  {
    forall k :: 0 <= k < |q| ==> q[k] as nat == k + 1
  }

  /** One step of the seeding loop: pushing the next port extends the count. */
  lemma PushNext(s: Lru, i: u16)
    requires Inv(s) && 1 <= i as nat < LRU_MAX_PORTS
    requires |Queue(s)| == i as nat - 1 && Counted(Queue(s))
    ensures Queue(Push(s, i)) == Queue(s) + [i]
    ensures Counted(Queue(Push(s, i)))
  {
    var q := Queue(s);
    assert i !in q by {
      forall k | 0 <= k < |q| ensures q[k] != i { assert q[k] as nat == k + 1; }
    }
  }

  /** The reconciliation of dpif_linux_port_dump_done after a complete dump:
      every port below LRU_MAX_PORTS that the dump did not report is pushed,
      in increasing order. Ports already queued stay where they are, and the
      local port is never queued. */
  method Reconcile(s: Lru, seen: set<nat>) returns (s': Lru)
    requires Inv(s)
    ensures Inv(s')
    ensures |Queue(s)| <= |Queue(s')| && Queue(s')[..|Queue(s)|] == Queue(s)
    ensures forall p: u16 :: p < LRU_MAX_PORTS ==>
              (p in Queue(s') <==> p != LOCAL_PORT && (p in Queue(s) || p !in seen))
    ensures Increasing(Queue(s')[|Queue(s)|..])
  {
    var q := Queue(s);
    s' := s;
    var i: u16 := 0;
    while i < LRU_MAX_PORTS as u16
      invariant 0 <= i <= LRU_MAX_PORTS
      invariant Inv(s')
      invariant Reconciled(q, Queue(s'), seen, i)
    {
      var before := Queue(s');
      if i !in seen {
        s' := Push(s', i);
      }
      ReconcileStep(q, before, Queue(s'), seen, i);
      i := i + 1;
    }
  }

  /** The loop state of Reconcile after ports 0 .. i-1 were considered: the
      old queue is a prefix of the current one, which holds exactly the old
      ports and the unseen nonlocal ports below i, the added ones ascending. */
  predicate Reconciled(q: seq<u16>, cur: seq<u16>, seen: set<nat>, i: nat)
  {
    && LOCAL_PORT !in q
    && |q| <= |cur| && cur[..|q|] == q
    && (forall p: u16 :: p < i ==> (p in cur <==> p != LOCAL_PORT && (p in q || p !in seen)))
    && (forall p: u16 :: i <= p < LRU_MAX_PORTS ==> (p in cur <==> p in q))
    && (forall k :: |q| <= k < |cur| ==> cur[k] < i)
    && Increasing(cur[|q|..])
  }

  lemma ReconcileStep(q: seq<u16>, cur: seq<u16>, next: seq<u16>, seen: set<nat>, i: u16)
    requires i < LRU_MAX_PORTS
    requires Reconciled(q, cur, seen, i)
    requires next == if i !in seen && LOCAL_PORT < i && i !in cur then cur + [i] else cur
    ensures Reconciled(q, next, seen, i as nat + 1)
  {
    if next != cur {
      assert next[..|q|] == cur[..|q|];
      var added, added' := cur[|q|..], next[|q|..];
      assert added' == added + [i];
      forall a, b | 0 <= a < b < |added'|
        ensures added'[a] < added'[b]
      {
        if b == |added'| - 1 {
          assert added'[a] == cur[|q| + a];
        }
      }
    }
    forall p: u16 | p < i as nat + 1
      ensures p in next <==> p != LOCAL_PORT && (p in q || p !in seen)
    {
      if p != i {
        assert p in next <==> p in cur;
      } else {
        assert p in cur <==> p in q;
      }
    }
    forall p: u16 | i as nat + 1 <= p < LRU_MAX_PORTS
      ensures p in next <==> p in q
    {
      assert p in next <==> p in cur;
    }
  }
}

=== FILE: priority.dfy ===
/** Mapping an OpenFlow queue id to a Linux traffic-control priority, in
    unsigned 32-bit arithmetic. */
module Priority {
  import opened Types

  /** TC_H_MAKE of linux/pkt_sched.h: the major number from the high half of
      'maj', the minor number from the low half of 'min'. */
  function TcHMake(maj: bv32, min: bv32): bv32
  {
    (maj & 0xFFFF_0000) | (min & 0x0000_FFFF)
  }

  /** Queue ids from this one on have no priority. */
  const QUEUE_LIMIT: bv32 := 0xF000

  /** dpif_linux_queue_to_priority: a queue id below QUEUE_LIMIT becomes
      class 1:(id+1), major number 1 and minor number id+1; any other id is
      EINVAL and the priority the caller passed in is returned untouched. */
  function QueueToPriority(queueId: bv32, priority: bv32): (r: (nat, bv32))
    ensures queueId < QUEUE_LIMIT ==>
              && r.0 == 0
              && r.1 >> 16 == 1
              && r.1 & 0xFFFF == queueId + 1
    ensures queueId >= QUEUE_LIMIT ==> r == (EINVAL as nat, priority)
  {
    if queueId < QUEUE_LIMIT then (0, TcHMake(1 << 16, queueId + 1))
    else (EINVAL as nat, priority)
  }

  /** Distinct queues get distinct priorities, and no queue gets minor
      number 0 (which traffic control reserves for the class itself). */
  lemma Injective(a: bv32, b: bv32, pa: bv32, pb: bv32)
    requires a < QUEUE_LIMIT && b < QUEUE_LIMIT
    ensures QueueToPriority(a, pa).1 & 0xFFFF != 0
    ensures QueueToPriority(a, pa).1 == QueueToPriority(b, pb).1 ==> a == b
  {
  }
}

=== FILE: protocol.dfy ===
/** Numeric vocabulary of the Open vSwitch Generic Netlink families: command
    numbers, attribute slots and enumerations shared with the kernel module.
    The header that fixes these numbers is not part of this model; the values
    below follow its declaration order, and the model only relies on the
    slots of one family being distinct. */
module Protocol {
  import opened Types

  // Generic Netlink message flags (linux/netlink.h).
  const NLM_F_REQUEST: bv16 := 0x1
  const NLM_F_ECHO: bv16 := 0x8
  const NLM_F_CREATE: bv16 := 0x400

  /** Size of a network interface name buffer, terminator included. */
  const IFNAMSIZ: nat := 16
  const ETH_ADDR_LEN: nat := 6
  const ETH_HEADER_LEN: nat := 14

  // Datapath family.
  const OVS_DP_CMD_NEW: u8 := 1
  const OVS_DP_CMD_DEL: u8 := 2
  const OVS_DP_CMD_GET: u8 := 3
  const OVS_DP_CMD_SET: u8 := 4

  const OVS_DP_ATTR_NAME: nat := 1
  const OVS_DP_ATTR_STATS: nat := 2
  const OVS_DP_ATTR_IPV4_FRAGS: nat := 3
  const OVS_DP_ATTR_SAMPLING: nat := 4
  const OVS_DP_ATTR_MCGROUPS: nat := 5

  const OVS_DP_FRAG_UNSPEC: u32 := 0
  const OVS_DP_FRAG_ZERO: u32 := 1
  const OVS_DP_FRAG_DROP: u32 := 2

  /** struct ovs_dp_stats: n_hit, n_missed, n_lost, n_flows. */
  const DP_STATS_COUNTERS: nat := 4

  // Vport family.
  const OVS_VPORT_CMD_NEW: u8 := 1
  const OVS_VPORT_CMD_DEL: u8 := 2
  const OVS_VPORT_CMD_GET: u8 := 3
  const OVS_VPORT_CMD_SET: u8 := 4

  const OVS_VPORT_ATTR_PORT_NO: nat := 1
  const OVS_VPORT_ATTR_TYPE: nat := 2
  const OVS_VPORT_ATTR_NAME: nat := 3
  const OVS_VPORT_ATTR_STATS: nat := 4
  const OVS_VPORT_ATTR_ADDRESS: nat := 5
  const OVS_VPORT_ATTR_OPTIONS: nat := 6
  const OVS_VPORT_ATTR_IFINDEX: nat := 7

  const OVS_VPORT_TYPE_UNSPEC: u32 := 0
  const OVS_VPORT_TYPE_NETDEV: u32 := 1
  const OVS_VPORT_TYPE_INTERNAL: u32 := 2

  /** struct ovs_vport_stats: rx/tx packets, bytes, errors, dropped. */
  const VPORT_STATS_COUNTERS: nat := 8

  // Flow family.
  const OVS_FLOW_CMD_NEW: u8 := 1
  const OVS_FLOW_CMD_DEL: u8 := 2
  const OVS_FLOW_CMD_GET: u8 := 3
  const OVS_FLOW_CMD_SET: u8 := 4

  const OVS_FLOW_ATTR_KEY: nat := 1
  const OVS_FLOW_ATTR_ACTIONS: nat := 2
  const OVS_FLOW_ATTR_STATS: nat := 3
  const OVS_FLOW_ATTR_TCP_FLAGS: nat := 4
  const OVS_FLOW_ATTR_USED: nat := 5
  const OVS_FLOW_ATTR_CLEAR: nat := 6

  /** struct ovs_flow_stats: n_packets, n_bytes. */
  const FLOW_STATS_COUNTERS: nat := 2

  // Packet family.
  const OVS_PACKET_CMD_MISS: u8 := 1
  const OVS_PACKET_CMD_ACTION: u8 := 2
  const OVS_PACKET_CMD_SAMPLE: u8 := 3
  const OVS_PACKET_CMD_EXECUTE: u8 := 4

  const OVS_PACKET_ATTR_PACKET: nat := 1
  const OVS_PACKET_ATTR_KEY: nat := 2
  const OVS_PACKET_ATTR_ACTIONS: nat := 3
  const OVS_PACKET_ATTR_USERDATA: nat := 4
  const OVS_PACKET_ATTR_SAMPLE_POOL: nat := 5
}

=== FILE: types.dfy ===
/** Basic vocabulary shared by every part of the datapath-interface model:
    fixed-width integer ranges, presence markers, results, and the POSIX
    error numbers the Linux datapath interface reports. */
module Types {

  type byte = x: nat | x < 0x100
  type u8 = x: nat | x < 0x100
  type u16 = x: nat | x < 0x1_0000
  type u32 = x: nat | x < 0x1_0000_0000
  type u64 = x: nat | x < 0x1_0000_0000_0000_0000
  type i32 = x: int | -0x8000_0000 <= x < 0x8000_0000

  /** The all-ones 32-bit value: "no port" for the allocator and
      "let the kernel choose" for a vport request. */
  const UINT32_MAX: u32 := 0xFFFF_FFFF

  /** A presence marker; replaces the C code's NULL values. */
  datatype Option<+T> = None | Some(value: T) {
    function GetOr(default: T): T {
      match this
      case Some(v) => v
      case None => default
    }
  }

  /** A positive errno value. */
  type Errno = x: int | x > 0 witness 1

  /** A value, or the positive errno that replaced it. */
  datatype Result<+T> = Ok(value: T) | Err(error: Errno)

  // Linux errno values, as returned by the datapath interface.
  const ENOENT: Errno := 2
  const EAGAIN: Errno := 11
  const EBUSY: Errno := 16
  const ENODEV: Errno := 19
  const EINVAL: Errno := 22
  const EFBIG: Errno := 27
  const ENOBUFS: Errno := 105
  /** End of a dump, as returned by the port dump iterator. */
  const EOF: int := -1
}

=== FILE: upcall.dfy ===
/** Upcalls: packets the kernel datapath sends up to user space on the
    packet family's multicast groups, their decoding, the bounded receive
    loop, and the subscription to those groups. */
module Upcall {
  import opened Types
  import opened Protocol
  import opened Netlink
  import Datapath

  /** enum dpif_upcall_type, in its numeric order (DPIF_UC_MISS is 0). */
  datatype UpcallType = Miss | Action | Sample

  function Index(t: UpcallType): (i: nat)
    ensures i < 3
  {
    match t
    case Miss => 0
    case Action => 1
    case Sample => 2
  }

  /** The packet command that carries each upcall type. */
  function CmdOf(t: UpcallType): u8
  {
    match t
    case Miss => OVS_PACKET_CMD_MISS
    case Action => OVS_PACKET_CMD_ACTION
    case Sample => OVS_PACKET_CMD_SAMPLE
  }

  /** The upcall type a packet command announces: exactly the three upcall
      commands are recognised, each as its own type. */
  function TypeOfCmd(cmd: u8): (r: Option<UpcallType>)
    ensures forall t :: r == Some(t) <==> cmd == CmdOf(t)
  {
    if cmd == OVS_PACKET_CMD_MISS then Some(Miss)
    else if cmd == OVS_PACKET_CMD_ACTION then Some(Action)
    else if cmd == OVS_PACKET_CMD_SAMPLE then Some(Sample)
    else None
  }

  /** struct dpif_upcall. The key and the actions are nested attribute
      lists this layer never opens, so they are kept as bytes. */
  datatype Upcall = Upcall(
    kind: UpcallType,
    packet: seq<byte>,
    key: seq<byte>,
    userdata: u64,
    samplePool: u32,
    actions: Option<seq<byte>>)

  /** ovs_packet_policy: the packet (at least an Ethernet header) and the
      key are always present; the user data (action upcalls), the sample
      pool and the actions (sample upcalls) are optional. */
  const POLICY: Policy := map[
    OVS_PACKET_ATTR_PACKET := Rule(KBlob(ETH_HEADER_LEN, None), false),
    OVS_PACKET_ATTR_KEY := Rule(KBlob(0, None), false),
    OVS_PACKET_ATTR_USERDATA := Rule(KU64, true),
    OVS_PACKET_ATTR_SAMPLE_POOL := Rule(KU32, true),
    OVS_PACKET_ATTR_ACTIONS := Rule(KBlob(0, None), true)]

  /** parse_odp_packet: EINVAL for another family's message, for one the
      packet policy rejects, or for a command that is not an upcall;
      otherwise the upcall and the datapath index it came from, with an
      absent user data or sample pool read as 0. */
  function ParseOdpPacket(m: Msg, family: u16): (r: Result<(i32, Upcall)>)
    ensures r.Err? ==> r.error == EINVAL
    ensures m.family != family || TypeOfCmd(m.cmd).None? ==> r.Err?
    ensures OVS_PACKET_ATTR_PACKET !in m.attrs || OVS_PACKET_ATTR_KEY !in m.attrs ==> r.Err?
    ensures r.Ok? ==>
              var (dpIfindex, u) := r.value;
              && dpIfindex == m.dpIfindex
              && CmdOf(u.kind) == m.cmd
              && ETH_HEADER_LEN <= |u.packet|
              && Lookup(m.attrs, OVS_PACKET_ATTR_PACKET) == Some(Blob(u.packet))
              && Lookup(m.attrs, OVS_PACKET_ATTR_KEY) == Some(Blob(u.key))
              && (u.userdata != 0 ==> Lookup(m.attrs, OVS_PACKET_ATTR_USERDATA) == Some(U64(u.userdata)))
              && (u.samplePool != 0 ==> Lookup(m.attrs, OVS_PACKET_ATTR_SAMPLE_POOL) == Some(U32(u.samplePool)))
              && (u.actions.Some? <==> OVS_PACKET_ATTR_ACTIONS in m.attrs)
    ensures r.Ok? <==>
              m.family == family && PolicyParse(POLICY, m.attrs).Some? && TypeOfCmd(m.cmd).Some?
    ensures r.Ok? ==>
              var u := r.value.1;
              && (OVS_PACKET_ATTR_USERDATA in m.attrs ==> Lookup(m.attrs, OVS_PACKET_ATTR_USERDATA) == Some(U64(u.userdata)))
              && (OVS_PACKET_ATTR_USERDATA !in m.attrs ==> u.userdata == 0)
              && (OVS_PACKET_ATTR_SAMPLE_POOL in m.attrs ==> Lookup(m.attrs, OVS_PACKET_ATTR_SAMPLE_POOL) == Some(U32(u.samplePool)))
              && (OVS_PACKET_ATTR_SAMPLE_POOL !in m.attrs ==> u.samplePool == 0)
              && Lookup(m.attrs, OVS_PACKET_ATTR_ACTIONS) == (if u.actions.Some? then Some(Blob(u.actions.value)) else None)
  {
    if m.family != family then Err(EINVAL)
    else
      match PolicyParse(POLICY, m.attrs)
      case None => Err(EINVAL)
      case Some(a) =>
        match TypeOfCmd(m.cmd)
        case None => Err(EINVAL)
        case Some(t) =>
          assert Fits(a[OVS_PACKET_ATTR_PACKET], KBlob(ETH_HEADER_LEN, None));
          assert Fits(a[OVS_PACKET_ATTR_KEY], KBlob(0, None));
          Ok((m.dpIfindex, Upcall(
            t,
            a[OVS_PACKET_ATTR_PACKET].bytes,
            a[OVS_PACKET_ATTR_KEY].bytes,
            if OVS_PACKET_ATTR_USERDATA in a then a[OVS_PACKET_ATTR_USERDATA].u64 else 0,
            if OVS_PACKET_ATTR_SAMPLE_POOL in a then a[OVS_PACKET_ATTR_SAMPLE_POOL].u32 else 0,
            if OVS_PACKET_ATTR_ACTIONS in a then Some(a[OVS_PACKET_ATTR_ACTIONS].bytes) else None)))
  }

  /** The message the kernel sends for an upcall: the packet and key always,
      the other attributes when they are set. */
  function ToMsg(u: Upcall, dpIfindex: i32, family: u16): (m: Msg)
    ensures m.family == family && m.cmd == CmdOf(u.kind) && m.dpIfindex == dpIfindex
    ensures OVS_PACKET_ATTR_USERDATA in m.attrs <==> u.userdata != 0
  {
    var attrs := map[OVS_PACKET_ATTR_PACKET := Blob(u.packet), OVS_PACKET_ATTR_KEY := Blob(u.key)];
    var attrs := PutIf(attrs, u.userdata != 0, OVS_PACKET_ATTR_USERDATA, U64(u.userdata));
    var attrs := PutIf(attrs, u.samplePool != 0, OVS_PACKET_ATTR_SAMPLE_POOL, U32(u.samplePool));
    var attrs := PutIf(attrs, u.actions.Some?, OVS_PACKET_ATTR_ACTIONS, Blob(u.actions.GetOr([])));
    Msg(family, 0, CmdOf(u.kind), dpIfindex, attrs)
  }

  /** Every upcall whose packet holds an Ethernet header is decoded back from
      the message that carries it, together with its datapath index. */
  lemma RoundTrip(u: Upcall, dpIfindex: i32, family: u16)
    requires ETH_HEADER_LEN <= |u.packet|
    ensures ParseOdpPacket(ToMsg(u, dpIfindex, family), family) == Ok((dpIfindex, u))
  {
    var m := ToMsg(u, dpIfindex, family);
    ParsesWhole(POLICY, m.attrs);
    assert TypeOfCmd(m.cmd) == Some(u.kind);
  }

  // ---------------------------------------------------------------------
  // Subscription.

  /** The multicast socket (present or not) and the listen mask, one bit per
      upcall type. */
  datatype Subscription = Subscription(hasSock: bool, listenMask: bv32)

  /** The state open_dpif starts from. */
  const UNSUBSCRIBED := Subscription(false, 0)

  /** A multicast socket exists exactly while some bit is set. */
  predicate SockIffListening(s: Subscription)
  {
    s.hasSock <==> s.listenMask != 0
  }

  /** The mask bit of an upcall type, '1u << type'. */
  function Bit(t: UpcallType): (b: bv32)
    ensures b == (1 as bv32) << Index(t)
  {
    match t
    case Miss => 1
    case Action => 2
    case Sample => 4
  }

  predicate Listens(mask: bv32, t: UpcallType)
  {
    mask & Bit(t) != 0
  }

  function Group(groups: Datapath.McGroups, t: UpcallType): u32
  {
    match t
    case Miss => groups.miss
    case Action => groups.action
    case Sample => groups.sample
  }

  /** The group g belongs to a type the mask selects. */
  predicate Selected(mask: bv32, groups: Datapath.McGroups, g: u32)
  {
    || (Listens(mask, Miss) && g == groups.miss)
    || (Listens(mask, Action) && g == groups.action)
    || (Listens(mask, Sample) && g == groups.sample)
  }

  /** The groups of the types a mask selects, in type order. */
  function GroupsOf(mask: bv32, groups: Datapath.McGroups): (r: seq<u32>)
    ensures forall t :: Listens(mask, t) ==> Group(groups, t) in r
    ensures forall g :: g in r <==> Selected(mask, groups, g)
  {
    (if Listens(mask, Miss) then [groups.miss] else [])
    + (if Listens(mask, Action) then [groups.action] else [])
    + (if Listens(mask, Sample) then [groups.sample] else [])
  }

  /** The status of a run of joins: every failure overwrites the previous
      one, so it is 0 when all succeed and otherwise the errno of the last
      join that failed. */
  function JoinError(gs: seq<u32>, join: u32 -> nat): (e: nat)
    ensures e == 0 <==> forall k :: 0 <= k < |gs| ==> join(gs[k]) == 0
    ensures e == 0 <==> forall g :: g in gs ==> join(g) == 0
    ensures e != 0 ==> exists k :: 0 <= k < |gs| && join(gs[k]) == e
                                   && forall j :: k < j < |gs| ==> join(gs[j]) == 0
    decreases |gs|
  {
    if |gs| == 0 then 0
    else
      var last := gs[|gs| - 1];
      var e := JoinError(gs[..|gs| - 1], join);
      if join(last) != 0 then join(last) else
        assert forall k :: 0 <= k < |gs| - 1 ==> gs[..|gs| - 1][k] == gs[k];
        e
  }

  /** The outcome of dpif_linux_recv_set_mask: the status, the new
      subscription, and the groups left and joined, in order. */
  datatype MaskChange = MaskChange(error: nat, sub: Subscription, left: seq<u32>, joined: seq<u32>)

  /** dpif_linux_recv_set_mask. An unchanged mask does nothing; a zero mask
      drops the socket (and with it every membership); otherwise a socket is
      created if there is none (its failure is returned with nothing
      changed), the old mask's groups are left, the mask is replaced, and
      the new mask's groups are joined. 'createError' and 'join' stand for
      the socket layer's answers. */
  function RecvSetMask(s: Subscription, groups: Datapath.McGroups, mask: bv32,
                       createError: nat, join: u32 -> nat): (r: MaskChange)
    ensures SockIffListening(s) ==> SockIffListening(r.sub)
    ensures r.sub == s || r.sub.listenMask == mask
    ensures r.sub.listenMask != mask ==> r.error == createError && r.error != 0 && r.sub == s && !s.hasSock
    ensures mask == s.listenMask || mask == 0 ==> r.error == 0 && r.left == [] && r.joined == []
    ensures mask != s.listenMask && mask == 0 ==> r.sub == UNSUBSCRIBED
    ensures mask != s.listenMask && mask != 0 && !s.hasSock && createError != 0 ==>
              r == MaskChange(createError, s, [], [])
    ensures mask != s.listenMask && mask != 0 && (s.hasSock || createError == 0) ==>
              r.sub == Subscription(true, mask)
    ensures mask != s.listenMask && r.sub.listenMask == mask && mask != 0 ==>
              && r.left == GroupsOf(s.listenMask, groups)
              && r.joined == GroupsOf(mask, groups)
              && r.error == JoinError(r.joined, join)
  {
    if mask == s.listenMask then MaskChange(0, s, [], [])
    else if mask == 0 then MaskChange(0, UNSUBSCRIBED, [], [])
    else if !s.hasSock && createError != 0 then MaskChange(createError, s, [], [])
    else
      var left := GroupsOf(s.listenMask, groups);
      var joined := GroupsOf(mask, groups);
      MaskChange(JoinError(joined, join), Subscription(true, mask), left, joined)
  }

  // ---------------------------------------------------------------------
  // Receiving.

  /** What one read of the multicast socket yields. */
  datatype Datagram = RecvError(errno: Errno) | Packet(msg: Msg)

  /** How many datagrams one call reads at most. */
  const RECV_BATCH: nat := 50

  /** What the receive loop does with one datagram: return an upcall, skip
      it (it decodes but belongs to another datapath or to a type nobody
      listens for), or fail with an errno. */
  datatype Verdict = Accept(upcall: Upcall) | Skip | Fail(error: Errno)

  function Judge(s: Subscription, dpIfindex: i32, family: u16, d: Datagram): Verdict
  {
    match d
    case RecvError(e) => Fail(e)
    case Packet(m) =>
      match ParseOdpPacket(m, family)
      case Err(e) => Fail(e)
      case Ok((idx, u)) =>
        if idx == dpIfindex && Listens(s.listenMask, u.kind) then Accept(u) else Skip
  }

  /** The outcome of dpif_linux_recv: the status, the upcall on success, and
      how many datagrams were taken off the socket. */
  datatype RecvOutcome = RecvOutcome(error: nat, upcall: Option<Upcall>, consumed: nat)

  function Report(v: Verdict, consumed: nat): RecvOutcome
  {
    match v
    case Accept(u) => RecvOutcome(0, Some(u), consumed)
    case Skip => RecvOutcome(EAGAIN, None, consumed)
    case Fail(e) => RecvOutcome(e, None, consumed)
  }

  /** The loop of dpif_linux_recv from its i-th iteration on, over the
      verdicts on the datagrams the socket holds. A socket with nothing left
      to read answers EAGAIN, as a non-blocking read does. */
  function RecvFrom(vs: seq<Verdict>, i: nat): (r: RecvOutcome)
    requires i <= RECV_BATCH && i <= |vs|
    ensures i <= r.consumed <= RECV_BATCH && r.consumed <= |vs|
    ensures forall k :: i <= k < r.consumed - 1 ==> vs[k].Skip?
    ensures r.consumed == i || vs[r.consumed - 1].Skip? ==>
              && r == RecvOutcome(EAGAIN, None, r.consumed)
              && (r.consumed == RECV_BATCH || r.consumed == |vs|)
    ensures r.consumed > i && !vs[r.consumed - 1].Skip? ==> r == Report(vs[r.consumed - 1], r.consumed)
    decreases RECV_BATCH - i
  {
    if i == RECV_BATCH || i == |vs| then RecvOutcome(EAGAIN, None, i)
    else if vs[i].Skip? then RecvFrom(vs, i + 1)
    else Report(vs[i], i + 1)
  }

  function Verdicts(s: Subscription, dpIfindex: i32, family: u16, socket: seq<Datagram>): (vs: seq<Verdict>)
    ensures |vs| == |socket|
    ensures forall k :: 0 <= k < |socket| ==> vs[k] == Judge(s, dpIfindex, family, socket[k])
  {
    seq(|socket|, k requires 0 <= k < |socket| => Judge(s, dpIfindex, family, socket[k]))
  }

  /** dpif_linux_recv: EAGAIN without a socket; otherwise at most
      RECV_BATCH datagrams are read, and the first one that is not skipped
      decides: its upcall is returned, or its errno. Reading RECV_BATCH
      skippable datagrams, or running out of them, gives EAGAIN. */
  function Recv(s: Subscription, dpIfindex: i32, family: u16, socket: seq<Datagram>): (r: RecvOutcome)
    ensures !s.hasSock ==> r == RecvOutcome(EAGAIN, None, 0)
    ensures r.consumed <= RECV_BATCH && r.consumed <= |socket|
    ensures r.error == 0 <==> r.upcall.Some?
    ensures r.error == 0 ==>
              && 0 < r.consumed
              && (forall k :: 0 <= k < r.consumed - 1 ==> Judge(s, dpIfindex, family, socket[k]).Skip?)
              && Judge(s, dpIfindex, family, socket[r.consumed - 1]) == Accept(r.upcall.value)
    ensures forall k ::
              s.hasSock && 0 <= k < RECV_BATCH && k < |socket| && FirstNotSkipped(s, dpIfindex, family, socket, k) ==>
                r == Report(Judge(s, dpIfindex, family, socket[k]), k + 1)
    ensures (s.hasSock && forall k :: 0 <= k < RECV_BATCH && k < |socket| ==> Judge(s, dpIfindex, family, socket[k]).Skip?) ==>
              r == RecvOutcome(EAGAIN, None, if |socket| < RECV_BATCH then |socket| else RECV_BATCH)
  {
    if !s.hasSock then RecvOutcome(EAGAIN, None, 0)
    else
      var vs := Verdicts(s, dpIfindex, family, socket);
      assert forall k :: 0 <= k < RECV_BATCH && k < |socket| && FirstNotSkipped(s, dpIfindex, family, socket, k)
               ==> RecvFrom(vs, 0) == Report(vs[k], k + 1) by {
        forall k | 0 <= k < RECV_BATCH && k < |socket| && FirstNotSkipped(s, dpIfindex, family, socket, k)
          ensures RecvFrom(vs, 0) == Report(vs[k], k + 1)
        {
          FirstDecisive(vs, 0, k);
        }
      }
      RecvFrom(vs, 0)
  }

  /** Datagram k is the first one the receive loop does not skip. */
  predicate FirstNotSkipped(s: Subscription, dpIfindex: i32, family: u16, socket: seq<Datagram>, k: nat)
    requires k < |socket|
  {
    && !Judge(s, dpIfindex, family, socket[k]).Skip?
    && forall j :: 0 <= j < k ==> Judge(s, dpIfindex, family, socket[j]).Skip?
  }

  /** Datagrams beyond the first RECV_BATCH are never looked at. */
  lemma {:induction false} RecvReadsOneBatch(vs: seq<Verdict>, i: nat)
    requires RECV_BATCH <= |vs| && i <= RECV_BATCH
    ensures RecvFrom(vs, i) == RecvFrom(vs[..RECV_BATCH], i)
    decreases RECV_BATCH - i
  {
    if i < RECV_BATCH {
      assert vs[..RECV_BATCH][i] == vs[i];
      RecvReadsOneBatch(vs, i + 1);
    }
  }

  /** When the k-th datagram is the first one not skipped (k below the
      batch size), it alone decides the outcome. */
  lemma {:induction false} FirstDecisive(vs: seq<Verdict>, i: nat, k: nat)
    requires i <= k < RECV_BATCH && k < |vs|
    requires forall j :: i <= j < k ==> vs[j].Skip?
    requires !vs[k].Skip?
    ensures RecvFrom(vs, i) == Report(vs[k], k + 1)
    decreases k - i
  {
    if i < k {
      FirstDecisive(vs, i + 1, k);
    }
  }
}

=== FILE: vport.dfy ===
/** The vport (datapath port) translator: the port descriptor, its request
    encoding, its reply decoding and the vport transaction. */
module Vport {
  import opened Types
  import opened Protocol
  import opened Netlink

  type VportStats = c: seq<u64> | |c| == VPORT_STATS_COUNTERS witness [0, 0, 0, 0, 0, 0, 0, 0]
  type EthAddr = a: seq<byte> | |a| == ETH_ADDR_LEN witness [0, 0, 0, 0, 0, 0]

  /** struct dpif_linux_vport. 'portNo' UINT32_MAX means "not set" (the
      kernel picks a number), 'vportType' OVS_VPORT_TYPE_UNSPEC and
      'ifindex' 0 mean "not set"; the options are kept as opaque bytes. */
  datatype Vport = Vport(
    cmd: u8,
    dpIfindex: i32,
    portNo: u32,
    vportType: u32,
    name: Option<string>,
    stats: Option<VportStats>,
    address: Option<EthAddr>,
    options: Option<seq<byte>>,
    ifindex: u32)

  /** dpif_linux_vport_init: everything empty, no port number. */
  function Init(): Vport
  {
    Vport(0, 0, UINT32_MAX, OVS_VPORT_TYPE_UNSPEC, None, None, None, None, 0)
  }

  const POLICY: Policy := map[
    OVS_VPORT_ATTR_PORT_NO := Rule(KU32, false),
    OVS_VPORT_ATTR_TYPE := Rule(KU32, false),
    OVS_VPORT_ATTR_NAME := Rule(KString(IFNAMSIZ), false),
    OVS_VPORT_ATTR_STATS := Rule(KCounters(VPORT_STATS_COUNTERS), true),
    OVS_VPORT_ATTR_ADDRESS := Rule(KBlob(ETH_ADDR_LEN, Some(ETH_ADDR_LEN)), true),
    OVS_VPORT_ATTR_OPTIONS := Rule(KBlob(0, None), true),
    OVS_VPORT_ATTR_IFINDEX := Rule(KU32, true)]

  /** dpif_linux_vport_to_ofpbuf: a request that carries exactly the fields
      that are set. */
  function ToMsg(v: Vport, family: u16): (m: Msg)
    ensures m.family == family && m.cmd == v.cmd && m.dpIfindex == v.dpIfindex
    ensures m.flags == NLM_F_REQUEST | NLM_F_ECHO
    ensures OVS_VPORT_ATTR_PORT_NO in m.attrs <==> v.portNo != UINT32_MAX
    ensures OVS_VPORT_ATTR_TYPE in m.attrs <==> v.vportType != OVS_VPORT_TYPE_UNSPEC
    ensures OVS_VPORT_ATTR_NAME in m.attrs <==> v.name.Some?
    ensures OVS_VPORT_ATTR_IFINDEX in m.attrs <==> v.ifindex != 0
    ensures m.attrs.Keys <= POLICY.Keys
    ensures Lookup(m.attrs, OVS_VPORT_ATTR_PORT_NO) ==
              if v.portNo != UINT32_MAX then Some(U32(v.portNo)) else None
    ensures Lookup(m.attrs, OVS_VPORT_ATTR_TYPE) ==
              if v.vportType != OVS_VPORT_TYPE_UNSPEC then Some(U32(v.vportType)) else None
    ensures Lookup(m.attrs, OVS_VPORT_ATTR_NAME) ==
              if v.name.Some? then Some(Str(v.name.value)) else None
    ensures Lookup(m.attrs, OVS_VPORT_ATTR_STATS) ==
              if v.stats.Some? then Some(Counters(v.stats.value)) else None
    ensures Lookup(m.attrs, OVS_VPORT_ATTR_ADDRESS) ==
              if v.address.Some? then Some(Blob(v.address.value)) else None
    ensures Lookup(m.attrs, OVS_VPORT_ATTR_OPTIONS) ==
              if v.options.Some? then Some(Blob(v.options.value)) else None
    ensures Lookup(m.attrs, OVS_VPORT_ATTR_IFINDEX) ==
              if v.ifindex != 0 then Some(U32(v.ifindex)) else None
  {
    var attrs := map[];
    var attrs := PutIf(attrs, v.portNo != UINT32_MAX, OVS_VPORT_ATTR_PORT_NO, U32(v.portNo));
    var attrs := PutIf(attrs, v.vportType != OVS_VPORT_TYPE_UNSPEC, OVS_VPORT_ATTR_TYPE, U32(v.vportType));
    var attrs := PutIf(attrs, v.name.Some?, OVS_VPORT_ATTR_NAME, Str(v.name.GetOr([])));
    var attrs := PutIf(attrs, v.stats.Some?, OVS_VPORT_ATTR_STATS,
                       Counters(v.stats.GetOr([0, 0, 0, 0, 0, 0, 0, 0])));
    var attrs := PutIf(attrs, v.address.Some?, OVS_VPORT_ATTR_ADDRESS,
                       Blob(v.address.GetOr([0, 0, 0, 0, 0, 0])));
    var attrs := PutIf(attrs, v.options.Some?, OVS_VPORT_ATTR_OPTIONS, Blob(v.options.GetOr([])));
    var attrs := PutIf(attrs, v.ifindex != 0, OVS_VPORT_ATTR_IFINDEX, U32(v.ifindex));
    Msg(family, NLM_F_REQUEST | NLM_F_ECHO, v.cmd, v.dpIfindex, attrs)
  }

  /** dpif_linux_vport_from_ofpbuf: EINVAL for another family's message or a
      message the vport policy rejects; the port number, type and name are
      required, the other fields are absent unless their slot is present. */
  function FromMsg(m: Msg, family: u16): (r: Result<Vport>)
    ensures r.Err? ==> r.error == EINVAL
    ensures m.family != family ==> r.Err?
    ensures (|| OVS_VPORT_ATTR_PORT_NO !in m.attrs
             || OVS_VPORT_ATTR_TYPE !in m.attrs
             || OVS_VPORT_ATTR_NAME !in m.attrs) ==> r.Err?
    ensures r.Ok? ==> r.value.cmd == m.cmd && r.value.dpIfindex == m.dpIfindex
    ensures r.Ok? ==> r.value.name.Some?
    ensures r.Ok? ==> Some(U32(r.value.portNo)) == Lookup(m.attrs, OVS_VPORT_ATTR_PORT_NO)
    ensures r.Ok? ==> (r.value.options.Some? <==> OVS_VPORT_ATTR_OPTIONS in m.attrs)
    ensures r.Ok? <==> m.family == family && PolicyParse(POLICY, m.attrs).Some?
    ensures r.Ok? ==>
              var v := r.value;
              && Lookup(m.attrs, OVS_VPORT_ATTR_TYPE) == Some(U32(v.vportType))
              && Lookup(m.attrs, OVS_VPORT_ATTR_NAME) == Some(Str(v.name.value))
              && Lookup(m.attrs, OVS_VPORT_ATTR_STATS) ==
                   (if v.stats.Some? then Some(Counters(v.stats.value)) else None)
              && Lookup(m.attrs, OVS_VPORT_ATTR_ADDRESS) ==
                   (if v.address.Some? then Some(Blob(v.address.value)) else None)
              && Lookup(m.attrs, OVS_VPORT_ATTR_OPTIONS) ==
                   (if v.options.Some? then Some(Blob(v.options.value)) else None)
              && ReadsU32(m.attrs, OVS_VPORT_ATTR_IFINDEX, v.ifindex)
  {
    if m.family != family then Err(EINVAL)
    else
      match PolicyParse(POLICY, m.attrs)
      case None => Err(EINVAL)
      case Some(a) =>
        assert Fits(a[OVS_VPORT_ATTR_PORT_NO], KU32);
        assert Fits(a[OVS_VPORT_ATTR_TYPE], KU32);
        assert Fits(a[OVS_VPORT_ATTR_NAME], KString(IFNAMSIZ));
        Ok(Vport(
          m.cmd,
          m.dpIfindex,
          a[OVS_VPORT_ATTR_PORT_NO].u32,
          a[OVS_VPORT_ATTR_TYPE].u32,
          Some(a[OVS_VPORT_ATTR_NAME].str),
          if OVS_VPORT_ATTR_STATS in a then Some(a[OVS_VPORT_ATTR_STATS].counters) else None,
          if OVS_VPORT_ATTR_ADDRESS in a then Some(a[OVS_VPORT_ATTR_ADDRESS].bytes) else None,
          if OVS_VPORT_ATTR_OPTIONS in a then Some(a[OVS_VPORT_ATTR_OPTIONS].bytes) else None,
          if OVS_VPORT_ATTR_IFINDEX in a then a[OVS_VPORT_ATTR_IFINDEX].u32 else 0))
  }

  /** A descriptor that a reply can carry: the required fields are set and
      the name fits in an interface name buffer. */
  predicate Encodable(v: Vport)
  {
    && v.portNo != UINT32_MAX
    && v.vportType != OVS_VPORT_TYPE_UNSPEC
    && v.name.Some? && |v.name.value| < IFNAMSIZ
  }

  /** Decoding what was encoded gives the descriptor back: fields omitted on
      encode come back absent, not as zero-valued present ones. */
  lemma RoundTrip(v: Vport, family: u16)
    requires Encodable(v)
    ensures FromMsg(ToMsg(v, family), family) == Ok(v)
  {
    var m := ToMsg(v, family);
    ParsesWhole(POLICY, m.attrs);
  }

  /** Attributes in slots the vport policy does not declare never change
      the result of decoding (forward compatibility). */
  lemma UnknownSlotsIgnored(m: Msg, family: u16, extra: map<nat, AttrValue>)
    requires extra.Keys !! POLICY.Keys
    ensures FromMsg(m.(attrs := m.attrs + extra), family) == FromMsg(m, family)
  {
    Netlink.UnknownSlotsIgnored(POLICY, m.attrs, extra);
    var m' := m.(attrs := m.attrs + extra);
    if m.family == family && PolicyParse(POLICY, m.attrs).Some? {
      assert PolicyParse(POLICY, m'.attrs) == PolicyParse(POLICY, m.attrs);
    }
  }

  /** dpif_linux_vport_transact: a failed start-up short-circuits; otherwise
      the request is encoded and sent, and when a reply is wanted it is
      decoded. On any failure the reply is reset to the empty descriptor. */
  function Transact(g: Genl, request: Vport, wantReply: bool): (r: Reply<Vport>)
    ensures g.initError != 0 ==> r == Reply(g.initError, Init())
    ensures r.error != 0 || !wantReply ==> r.reply == Init()
    ensures g.initError == 0 && !wantReply ==>
              match g.kernel(ToMsg(request, g.families.vport))
              case Err(e) => r == Reply(e, Init())
              case Ok(_) => r == Reply(0, Init())
    ensures g.initError == 0 && wantReply ==>
              match g.kernel(ToMsg(request, g.families.vport))
              case Err(e) => r.error == e
              case Ok(m) => (match FromMsg(m, g.families.vport)
                             case Err(e) => r.error == e
                             case Ok(v) => r == Reply(0, v))
  {
    if g.initError != 0 then Reply(g.initError, Init())
    else
      match g.kernel(ToMsg(request, g.families.vport))
      case Err(e) => Reply(e, Init())
      case Ok(m) =>
        if !wantReply then Reply(0, Init())
        else
          match FromMsg(m, g.families.vport)
          case Err(e) => Reply(e, Init())
          case Ok(v) => Reply(0, v)
  }
}
